=== FILE: README.md ===
# Budget tracker financial advisor, in Dafny

This project models the advisor panel of the budget tracker's page script (`script.js`).
It leaves out the DOM and the network and keeps the panel's logic:

- **Ledger** (`ledger.dfy`). The transactions, and what the page derives from them:
  - the running balance and the income and expense totals (`renderBalance`, `renderSummary`);
  - the expense-by-category breakdown, built both ways the code builds it. The chart's labels fall back to `📦` / `Other`; the advice prompt's labels do not;
  - the add form's check;
  - the transaction list as the assistant is shown it (`formatTransactionsForAI`).
- **Health** (`health.dfy`). The verdict of `showHealthDashboard`: savings, the savings rate rounded as `Math.round` rounds, and a three-band status.
- **Sentinel** (`sentinel.dfy`). How the confirmation reply is read. The first `INCOME_CONFIRMED:` followed by a maximal run of digits gives the income. The displayed text is the reply with that match, and one newline after it, removed and then trimmed.
- **Advisor** (`advisor.dfy`). The conversation controller, as a state record with pure transitions:
  - State: `aiState`, `confirmedIncome`, `chatHistory`, whether the input is enabled, and whether a health card with its consult button is on screen.
  - Each transition returns the next state and the events it produced: messages shown, input toggles, cards, and every call to the assistant gateway with its exact request.
  - Each gateway call's outcome is a parameter: the reply text, or a failure.
  - An invariant holds in every reachable state. It ties the input box to the phase, the confirmed income and the consult button to the health card, and the transcript to its single leading system message.
- **Text** (`text.dfy`) and **Wrappers** (`wrappers.dfy`). The JavaScript string behaviour the rest relies on: `trim`'s whitespace set, `\d`, `parseInt` and number printing, `id-ID` thousands grouping, `join`; and an `Option` type for `null`.

Points where the code decides something a reader might expect otherwise. The model follows the code in each case:

- **Zero income.** A confirmed income of 0 gives a savings rate of 0, and so always the Warning status, whatever the sign of the savings (script.js:503-508). The chat instructions divide by the income without a guard. There the rate becomes NaN or -Infinity (script.js:617, `Advisor.ChatRate`).
- **Rounding.** `Math.round` rounds halves up, toward +∞. A rate in (-0.5%, 0%) therefore rounds to 0 and is a Warning, and an exact -0.5% rounds up to 0 as well.
- **Failed confirmation call.** It does not restore the state from before the call. The user's answer has already joined the transcript, and it stays (script.js:454, 493-497).
- **Confirmation request.** The call sends only the first transcript message plus fresh instructions, not the transcript (script.js:479).
- **Loading.** A load starts an analysis only from `idle` (script.js:81-84). Add, delete and refresh go through `resetAI`.

## Model

| member | source | states |
|---|---|---|
| Text.TrimSpec | script.js:93 | `trim` keeps a slice of its input that has only trimmable code points around it and none at either end; the result is empty exactly when the whole input is trimmable |
| Text.Trim | script.js:658 | trimming never lengthens the text; what it keeps is stated by `Text.TrimSpec` |
| Text.TrimIdempotent | script.js:658 | trimming an already trimmed text changes nothing |
| Text.TrimUntouched | script.js:485 | text that neither starts nor ends with a trimmable code point is left as it is by `trim` |
| Text.ParseShowNat | script.js:484 | `parseInt` of the decimal digits of a number gives back that number |
| Text.ShowParseDecimal | script.js:484 | printing the value of a digit run without leading zeros gives back the digit run |
| Text.GroupThousandsDigits | script.js:385 | `id-ID` grouping only inserts `.` separators: removing them gives back the digits |
| Text.Rupiah | script.js:385 | the `id-ID` text of a whole number is its decimal digits with only `.` separators added, after a `-` when it is negative |
| Text.RupiahReadsBack | script.js:385 | dropping the separators of an amount's Rupiah text and reading the digits gives back the amount |
| Ledger.OrDefault | script.js:231 | `field \|\| fallback` yields the fallback exactly when the property is missing, empty or equal to the fallback, and otherwise the property itself |
| Ledger.OfKind | script.js:200-201 | filtering by type keeps only entries of that type, and every entry of that type is kept |
| Ledger.OfKindCounts | script.js:200-201 | filtering by type keeps each entry of that type as many times as it occurs in the list, and drops every other entry |
| Ledger.SumAmounts | script.js:200-201 | a sum of positive amounts is non-negative and is zero only for an empty list |
| Ledger.BalanceIsNet | script.js:191-201 | the running balance `Ledger.Balance`, adding income and subtracting everything else, equals total income minus total expense for every list |
| Ledger.TotalIsKindTotal | script.js:200-201 | filtering by type and then summing counts exactly the amounts of entries of that type |
| Ledger.TotalZeroIff | script.js:200-201 | a total is zero exactly when no entry has that type |
| Ledger.Accumulate | script.js:232 | adding an amount under a label adds it to that label's value only, keeps existing labels in place and appends a new label last, and raises the sum of values by the amount |
| Ledger.BreakdownKeys | script.js:229-233 | the breakdown (`Ledger.Breakdown`: the expense entries grouped by `Ledger.Group` under their `Ledger.Label`) has one property for each distinct label of an expense entry, and no other |
| Ledger.BreakdownOrder | script.js:229-233 | the breakdown's labels come in the order in which each label first occurs among the expense entries |
| Ledger.BreakdownValues | script.js:558-562 | each label's value is the sum of the expense entries with that label; income entries never contribute |
| Ledger.BreakdownSumsToTotalExpense | script.js:229-233 | the breakdown's values add up to the total expense |
| Ledger.BreakdownEmptyIff | script.js:212-214 | the breakdown is empty exactly when there is no expense entry |
| Ledger.Summarize | script.js:76-79 | after a load the shown balance is income minus expense, the chart's slices add up to the total expense, and the chart is empty exactly when there is no expense |
| Ledger.ScenarioTotals | script.js:191-201 | the worked example: income 5000000 and expenses 1200000 and 800000 give totals 5000000 and 2000000 and balance 3000000 |
| Ledger.CheckDraft | script.js:92-104 | the form is accepted exactly when the trimmed description is non-empty and the amount is a number above zero; what is sent has the trimmed description, the amount and the chosen type, and the selected category's name and emoji, or the defaults when nothing is selected |
| Ledger.Line | script.js:384-385 | each line starts with `- `, the upper-case type in brackets and the entry's chart label followed by ` \| `, then the description exactly, and ends with `: Rp ` and the amount in Rupiah, whose digits read back as the amount |
| Ledger.FormatForAssistant | script.js:382-387 | the fixed note is produced exactly for an empty list; a one-entry list gives exactly that entry's line, and a longer one starts with the first entry's line |
| Ledger.FormatSnoc | script.js:384-386 | one more entry after a non-empty list adds a newline and that entry's line at the end; with the one-entry case of `Ledger.FormatForAssistant` this makes the text the entries' lines in list order, separated by newlines |
| Health.RoundedPercent | script.js:503 | the rate is the integer within half a percent of 100·savings/income, with an exact half rounded up |
| Health.RoundedPercentUnique | script.js:503 | no other integer satisfies that bracket, so the rounding is determined |
| Health.Classify | script.js:502-512 | savings is income minus expense; the rate is rounded as `Math.round` rounds when income is positive and 0 otherwise; Healthy, Warning and Deficit hold exactly for rates of at least 20, 0 to 19, and below 0 |
| Health.StatusByAmounts | script.js:502-512 | Healthy exactly when income is positive and savings are at least 19.5% of it; Deficit exactly when income is positive and savings are below -0.5% of it; Warning otherwise, including every non-positive income |
| Health.Scenarios | script.js:502-512 | 5000000/2000000 gives 60% Healthy, 2000000/2000000 gives 0% Warning, 1000000/1500000 gives -50% Deficit, 200/201 rounds -0.5% up to 0 and is a Warning, and income 0 is a Warning |
| Sentinel.FindFrom | script.js:482 | the search returns the leftmost position at or after its start where the marker is followed by a digit, or reports that there is none |
| Sentinel.DigitRunEnd | script.js:482 | the digit run after the marker is maximal: all digits up to its end, and no digit at its end |
| Sentinel.Remainder | script.js:485 | what is cut out at the match is the marker, a maximal run of digits and then a newline if one follows; the text before and after the cut is kept as it is |
| Sentinel.ParseReply | script.js:482-485 | a reply confirms an income exactly when the marker followed by a digit occurs somewhere in it, and the display text is shorter than the reply by more than the marker; what the income and display are is stated by `Sentinel.ReadMarkedReply` for any digit run, leading zeros included, and by `Sentinel.ParseMarkedReply` for a printed number |
| Sentinel.FirstMatchAfter | script.js:482 | a marker with a digit, placed after text with no match of its own, is the first match |
| Sentinel.ParseMarkedReply | script.js:482-486 | round trip: text with no match, the marker, a number, a newline (or a separator that cannot extend the run) and more text reads as that number, with the surrounding text trimmed as display |
| Sentinel.ReadMarkedReply | script.js:482-486 | any reply made of text with no match, the marker, a digit run (leading zeros allowed), a fitting separator and more text confirms the run's `parseInt` value, with the surrounding text trimmed as display |
| Sentinel.ConfirmationExample | script.js:482-486 | `"INCOME_CONFIRMED:5000000\nGreat, noted."` reads as 5000000 with display `"Great, noted."` |
| Advisor.CategorySummary | script.js:564-576 | the advice request's category list is the fixed word `tidak ada` exactly when there are no slices |
| Advisor.NoCategoriesIffNoExpense | script.js:558-576 | the advice request names no category exactly when the ledger has no expense entry |
| Advisor.ChatRate | script.js:617 | the chat instructions' rate is a finite number exactly when the income is positive, and NaN exactly when income and expense are both 0 |
| Advisor.ChatRateMatchesCard | script.js:503-617 | with a positive income the chat instructions state the same rate as the health card |
| Advisor.Initial | script.js:24-28 | the page starts idle, in a state that satisfies the invariant below |
| Advisor.Load | script.js:70-88 | a fetched list replaces the ledger, and only an idle panel becomes analyzing; a failed fetch changes nothing; nothing else changes |
| Advisor.ResetAI | script.js:389-396 | from any state: analyzing, no confirmed income, an empty transcript, input disabled, the chat area cleared and the consult button gone |
| Advisor.StartAIAnalysis | script.js:402-450 | an empty ledger makes no call and disables the input; otherwise the analysis request is sent, success opens the transcript as [system, user, assistant reply] and waits for confirmation with the input enabled, and failure changes nothing |
| Advisor.AutoAdvice | script.js:552-599 | one advice call is made; its reply is shown, and a failure shows nothing |
| Advisor.ShowHealthDashboard | script.js:501-550 | the card for the verdict is shown, the panel is done with its input disabled and the consult button shown, and the advice call follows |
| Advisor.HandleIncomeConfirmation | script.js:453-498 | the answer joins the transcript before the call; the request is the first transcript message plus fresh instructions; on success the raw reply joins the transcript; on failure only the answer stays and the apology is shown |
| Advisor.Settle | script.js:482-492 | a reply with the sentinel confirms its income, shows the cleaned text only if it is non-empty, then shows the card, disables the input and makes the advice call with the verdict for that income; a reply without one is shown verbatim and the panel keeps waiting |
| Advisor.ConfirmationPhase | script.js:482-545 | the confirmation step moves to done exactly when the call succeeds and the reply carries the sentinel, and then with the sentinel's income; otherwise the panel keeps waiting with the income unchanged |
| Advisor.SentinelConfirms | script.js:479-488 | a reply written as instructed confirms the income it states, shows the text around the sentinel if any, and produces the card for that income and the total expense, followed by the advice call for that verdict |
| Advisor.StartChatConsult | script.js:602-628 | chatting with the input enabled; with a confirmed income the transcript becomes exactly one system message and the greeting is shown; that message holds the confirmed income, the total expense, their difference as savings, the rate of `Advisor.ChatRate` and the transaction list of `Ledger.FormatForAssistant` (`Advisor.ChatContext`); without an income the code throws after enabling the input |
| Advisor.HandleChatMessage | script.js:630-643 | the user's turn joins the transcript and the whole transcript is sent; the reply joins only on success, and a failure shows the apology |
| Advisor.HandleAIInput | script.js:656-665 | blank input does nothing; other input is echoed trimmed, and outside confirming and chatting nothing more happens |
| Advisor.InputRouting | script.js:656-665 | in a consistent state, non-blank input reaches the assistant exactly when the input box is enabled |
| Advisor.Step | script.js:646-654 | sent input does nothing while the input box and send button are disabled, and the consult button does nothing while it is not on screen |
| Advisor.StepKeepsLedger | script.js:64-88 | only a successful fetch, on the first load or after an add or a delete, changes the ledger the panel reads |
| Advisor.StepConsistent | script.js:389-665 | every stimulus keeps the invariant: input enabled exactly while confirming or chatting; an income confirmed and the consult button shown exactly when done or chatting; no transcript before the analysis succeeds, and afterwards a transcript whose first message is its only system message |
| Advisor.ReachableConsistent | script.js:389-665 | every state reached from the initial page satisfies the invariant |
| Advisor.ConsultHasIncome | script.js:602-628 | in every reachable state the consult button implies a confirmed income, so `startChatConsult` never throws and always leaves a one-message transcript |
| Advisor.ConfirmationRequestShape | script.js:479 | in every reachable waiting state, the confirmation request is the analysis's system instructions followed by the confirmation instructions, and nothing else |
| Advisor.EmptyLedgerNeverConfirms | script.js:402-407 | as long as no fetch ever brings a transaction, the panel never asks for the income: it stays idle or analyzing, with nothing confirmed and its input disabled |
| Advisor.RefreshEmptyLedger | script.js:389-407 | a refresh with an empty ledger makes no call and leaves the panel analyzing, with the input disabled and no transcript |

## Left out

- Network I/O. The `fetch` calls, the login and project redirects (script.js:6-10, 70-73) and category management (script.js:255-327) are left out. A load is given its fetched list, or a failure. An add or a delete is given the reloaded list.
- The gateway body (`callAI`, script.js:333-347). Each call's outcome is a parameter, either `Ok(text)` or `Failed`. A reply whose content is not a string is not modelled.
- Rendering. The list rows, dates and times, Chart.js, the card's markup, the typing indicator, scrolling, the input's placeholder and the clearing of its value are left out. They appear only as events.
- Prompt wording. The analysis, confirmation, advice and chat instructions are `Prompt` values. Each carries the data the code writes into it; the surrounding text carries no behaviour.
- Timers. Each `setTimeout` (script.js:83, 396, 488, 549) is run at once, inside the step that starts it. The 500 ms during which the phase is still confirming, and overlapping calls (the code has no single-flight guard), are not modelled.
- Advisor.Step: an add or a delete while the panel is still idle (the first load failed) lets the reload schedule an analysis of its own besides the reset's; the model runs only the reset's.
- Ledger.CheckDraft: the amount is given as a whole number or NaN (`None`). `parseFloat`'s fractional amounts are not modelled, because amounts are whole Rupiah throughout.
- Floating point. The rate is computed in exact rationals, not as `(savings / income) * 100` in doubles. `parseInt` is exact above 2^53 in the model.
- Ledger.Label: a category property that is missing is modelled, and prints `undefined` in the advice labels. A property stored as `null` is not modelled.
- Locale formatting. `toLocaleString('id-ID')` is modelled for whole numbers only, as `.`-grouped thousands.

=== FILE: advisor.dfy ===
/** The financial advisor panel as a state machine: it reads the ledger, asks the
    assistant to find the monthly income, waits for the user to confirm it, shows the
    health verdict with automatic advice, and then chats. Every transition is a pure
    function of the controller and the outcomes of the assistant calls it makes. */
module Advisor {
  import opened Wrappers
  import opened Text
  import opened Ledger
  import opened Health
  import opened Sentinel

  // ---------------------------------------------------------------------------
  // State
  // ---------------------------------------------------------------------------

  /** `aiState`. */
  datatype Phase = Idle | Analyzing | ConfirmingIncome | Done | Chatting

  /** The phases in which typed text is handed to the assistant. */
  predicate AcceptsInput(p: Phase) {
    p == ConfirmingIncome || p == Chatting
  }

  /** The phases reached only once an income has been confirmed. */
  predicate KnowsIncome(p: Phase) {
    p == Done || p == Chatting
  }

  datatype Role = System | User | Assistant

  /** The savings rate as the chat instructions print it,
      `Math.round(((income - expense) / income) * 100)`: with an income of 0 the
      division gives NaN when nothing was spent and -Infinity otherwise. */
  datatype Percent = Finite(value: int) | NotANumber | MinusInfinity

  /** The instructions the panel writes for the assistant. Their wording carries no
      behaviour and is not modelled; each carries the data the panel puts into it. */
  datatype Prompt =
    | AnalysisSystem
    | AnalysisRequest(transactionList: string)
    | ConfirmRequest(answer: string, transactionList: string, totalExpense: int)
    | AdviceSystem
    | AdviceRequest(statusText: string, income: int, expense: int, savings: int,
                    savingsRate: int, categories: string, transactionList: string)
    | ChatSystem(income: int, expense: int, savings: int, rate: Percent, transactionList: string)

  /** What a message holds: text a person or the assistant wrote, or instructions. */
  datatype Content = Said(text: string) | Instructions(prompt: Prompt)

  datatype Message = Message(role: Role, content: Content)

  /** The outcome of one call to the assistant gateway (`callAI`): the reply text, or
      a failure (a network error, a non-2xx status or a reply without choices). */
  datatype Gateway = Ok(text: string) | Failed

  /** What the page shows or does, in order. */
  datatype Event =
    | LedgerShown(summary: Summary)
    | LoadFailed
    | ChatCleared
    | InputSet(enabled: bool)
    | UserSays(text: string)
    | AssistantSays(text: string)
    | HealthCard(verdict: Verdict, statusText: string)
    | GatewayCall(request: seq<Message>)

  /** The panel's state: the ledger it reads, `aiState`, `confirmedIncome`,
      `chatHistory`, whether the input box and send button are enabled, and whether a
      health card with its consult button is on screen. */
  datatype Controller = Controller(
    transactions: seq<Transaction>,
    phase: Phase,
    confirmedIncome: Option<nat>,
    history: seq<Message>,
    inputEnabled: bool,
    consultShown: bool)

  /** A transition's result: the next state and the events it produced. */
  datatype Outcome = Outcome(next: Controller, events: seq<Event>)

  /** `o` with `events` shown before its own. */
  function After(events: seq<Event>, o: Outcome): Outcome {
    Outcome(o.next, events + o.events)
  }

  predicate NoCalls(events: seq<Event>) {
    forall i :: 0 <= i < |events| ==> !events[i].GatewayCall?
  }

  // ---------------------------------------------------------------------------
  // Fixed texts
  // ---------------------------------------------------------------------------

  const EmptyLedgerHint: string :=
    "Hei! Tambahkan beberapa transaksi dulu ya, baru aku bisa analisis keuangan kamu 😊"
  const ConnectionApology: string :=
    "Maaf, tidak bisa terhubung ke AI sekarang. Coba klik 🔄 Refresh ya."
  const ErrorApology: string := "Maaf ada error. Coba lagi ya."
  const ChatGreeting: string :=
    "Siap! Tanya apa saja soal keuangan kamu. Misalnya: <i>\"Gimana caranya aku bisa nabung lebih banyak?\"</i> atau <i>\"Pengeluaran mana yang harus dikurangi?\"</i> 💪"
  const NoCategories: string := "tidak ada"

  /** The status line of the health card and of the advice request. */
  function StatusText(s: Status): string {
    match s
    case Healthy => "SEHAT"
    case Warning => "PERLU PERHATIAN"
    case Deficit => "DEFISIT"
  }

  /** One entry of the advice request's category list. */
  function CategoryLine(s: Slice): (r: string)
    ensures |r| > |s.key| && r[|s.key|] == ':'
  {
    s.key + ": Rp " + Rupiah(s.total)
  }

  /** The advice request's category list: one entry per slice, joined by `, `, or a
      fixed word when that gives the empty string. */
  function CategorySummary(b: seq<Slice>): (r: string)
    ensures b == [] <==> r == NoCategories
  {
    var lines := seq(|b|, i requires 0 <= i < |b| => CategoryLine(b[i]));
    var joined := Join(lines, ", ");
    if joined == [] then NoCategories
    else
      assert joined != NoCategories by {
        var k := |b[0].key|;
        assert joined[k] == lines[0][k];
        if k < |NoCategories| {
          NoColonInNoCategories(k);
        }
      }
      joined
  }

  lemma NoColonInNoCategories(k: nat)
    requires k < |NoCategories|
    ensures NoCategories[k] != ':'
  {
  }

  /** The rate stated in the chat instructions. */
  function ChatRate(income: nat, expense: int): (r: Percent)
    requires expense >= 0
    ensures r.Finite? <==> income > 0
    ensures r == NotANumber <==> income == 0 && expense == 0
  {
    if income > 0 then Finite(RoundedPercent(income - expense, income))
    else if expense == 0 then NotANumber
    else MinusInfinity
  }

  // ---------------------------------------------------------------------------
  // Transitions
  // ---------------------------------------------------------------------------

  /** The page before anything is loaded: idle, nothing confirmed, input disabled. */
  function Initial(): (c: Controller)
    ensures Consistent(c) && c.phase == Idle
  {
    Controller([], Idle, None, [], false, false)
  }

  /** `loadTransactions` without its timer: a fetched list replaces the ledger and is
      shown, and only an idle panel becomes analyzing; a failed fetch changes nothing
      but shows an error row. */
  function Load(c: Controller, fetched: Option<seq<Transaction>>): (o: Outcome)
    ensures fetched.None? ==> o.next == c
    ensures fetched.Some? ==> o.next.transactions == fetched.value
    ensures o.next.phase == if fetched.Some? && c.phase == Idle then Analyzing else c.phase
    ensures o.next.(transactions := c.transactions, phase := c.phase) == c
  {
    match fetched
    case None => Outcome(c, [LoadFailed])
    case Some(ts) =>
      var phase := if c.phase == Idle then Analyzing else c.phase;
      Outcome(c.(transactions := ts, phase := phase), [LedgerShown(Summarize(ts))])
  }

  /** `resetAI` without its timer: from any state, analyzing with nothing confirmed,
      an empty transcript, a cleared chat area and the input disabled. */
  function ResetAI(c: Controller): (o: Outcome)
    ensures o.next == Controller(c.transactions, Analyzing, None, [], false, false)
    ensures o.events == [ChatCleared, InputSet(false)]
  {
    Outcome(c.(phase := Analyzing, confirmedIncome := None, history := [], inputEnabled := false,
               consultShown := false),
            [ChatCleared, InputSet(false)])
  }

  /** The two instructions that open the analysis. */
  function AnalysisOpening(ts: seq<Transaction>): seq<Message> {
    [Message(System, Instructions(AnalysisSystem)),
     Message(User, Instructions(AnalysisRequest(FormatForAssistant(ts))))]
  }

  /** `startAIAnalysis`: an empty ledger gets a hint and no call; otherwise the
      assistant is asked to find the income, and its reply opens the transcript and
      the wait for the user's confirmation. A failed call leaves the state as it was. */
  function StartAIAnalysis(c: Controller, g: Gateway): (o: Outcome)
    ensures c.transactions == [] ==> NoCalls(o.events)
    ensures c.transactions != [] ==> |o.events| >= 1 && o.events[0] == GatewayCall(AnalysisOpening(c.transactions))
    ensures c.transactions == [] ==> o.next == c.(inputEnabled := false)
    ensures c.transactions != [] && g.Failed? ==> o.next == c
    ensures c.transactions != [] && g.Ok? ==>
              && o.next.phase == ConfirmingIncome && o.next.inputEnabled
              && o.next.history == AnalysisOpening(c.transactions) + [Message(Assistant, Said(g.text))]
              && o.next.(phase := c.phase, inputEnabled := c.inputEnabled, history := c.history) == c
  {
    if c.transactions == [] then
      Outcome(c.(inputEnabled := false), [AssistantSays(EmptyLedgerHint), InputSet(false)])
    else
      var request := AnalysisOpening(c.transactions);
      match g
      case Failed => Outcome(c, [GatewayCall(request), AssistantSays(ConnectionApology)])
      case Ok(reply) =>
        Outcome(c.(phase := ConfirmingIncome, inputEnabled := true,
                   history := request + [Message(Assistant, Said(reply))]),
                [GatewayCall(request), AssistantSays(reply), InputSet(true)])
  }

  /** The advice request: the verdict, the expense breakdown without label defaults,
      and the transaction list. */
  function AdviceOpening(ts: seq<Transaction>, v: Verdict): seq<Message> {
    var categories := CategorySummary(Breakdown(ts, AdviceLabels));
    [Message(System, Instructions(AdviceSystem)),
     Message(User, Instructions(AdviceRequest(StatusText(v.status), v.income, v.expense, v.savings,
                                              v.savingsRate, categories, FormatForAssistant(ts))))]
  }

  /** `getAutoAdvice`: one call; the reply is shown, and a failure shows nothing. */
  function AutoAdvice(ts: seq<Transaction>, v: Verdict, g: Gateway): (events: seq<Event>)
    ensures |events| >= 1 && events[0] == GatewayCall(AdviceOpening(ts, v))
    ensures events[1..] == if g.Ok? then [AssistantSays(g.text)] else []
  {
    var request := AdviceOpening(ts, v);
    match g
    case Ok(reply) => [GatewayCall(request), AssistantSays(reply)]
    case Failed => [GatewayCall(request)]
  }

  /** The health card for an income and a total expense, with its status line. */
  function Card(income: nat, expense: int): Event {
    var v := Classify(income, expense);
    HealthCard(v, StatusText(v.status))
  }

  /** `showHealthDashboard` followed at once by `getAutoAdvice`: the card, with its
      consult button, is shown, the panel is done, its input disabled, and the advice
      call made. */
  function ShowHealthDashboard(c: Controller, income: nat, expense: int, advice: Gateway): (o: Outcome)
    ensures o.next == c.(phase := Done, inputEnabled := false, consultShown := true)
    ensures |o.events| >= 3 && o.events[0] == Card(income, expense) && o.events[1] == InputSet(false)
    ensures o.events[2] == GatewayCall(AdviceOpening(c.transactions, Classify(income, expense)))
  {
    var v := Classify(income, expense);
    Outcome(c.(phase := Done, inputEnabled := false, consultShown := true),
            [Card(income, expense), InputSet(false)] + AutoAdvice(c.transactions, v, advice))
  }

  /** The request of the confirmation call: the first message of the transcript (the
      user's answer when the transcript was empty) and fresh instructions. */
  function ConfirmRequestOf(h: seq<Message>, answer: string, ts: seq<Transaction>): seq<Message>
    requires |h| >= 1
  {
    h[..1] + [Message(User, Instructions(ConfirmRequest(answer, FormatForAssistant(ts), TotalExpense(ts))))]
  }

  /** `handleIncomeConfirmation`: the answer joins the transcript before the call; the
      raw reply joins it after, whether or not it carries the sentinel, and is then
      settled. On failure only the answer is kept and an apology is shown. */
  function HandleIncomeConfirmation(c: Controller, answer: string, g: Gateway, advice: Gateway): (o: Outcome)
    ensures |o.events| >= 1 && o.events[0] == GatewayCall(ConfirmRequestOf(c.history + [Message(User, Said(answer))], answer, c.transactions))
    ensures g.Failed? ==> o.next == c.(history := c.history + [Message(User, Said(answer))])
    ensures g.Failed? ==> |o.events| == 2 && o.events[1] == AssistantSays(ErrorApology)
    ensures g.Ok? ==> o.next.history == c.history + [Message(User, Said(answer)), Message(Assistant, Said(g.text))]
  {
    var h := c.history + [Message(User, Said(answer))];
    var call := GatewayCall(ConfirmRequestOf(h, answer, c.transactions));
    match g
    case Failed => Outcome(c.(history := h), [call, AssistantSays(ErrorApology)])
    case Ok(reply) =>
      var h' := h + [Message(Assistant, Said(reply))];
      assert h' == c.history + [Message(User, Said(answer)), Message(Assistant, Said(reply))];
      var settled := Settle(c.(history := h'), reply, ParseReply(reply), advice);
      assert settled.next.history == h';
      After([call], settled)
  }

  /** What the confirmation reply does once it has joined the transcript: a sentinel
      confirms the income, shows the rest of the reply if any is left, and goes on to
      the health card; without one the reply is shown as it is and the panel keeps
      waiting. */
  function Settle(c: Controller, reply: string, parsed: Reply, advice: Gateway): (o: Outcome)
    ensures o.next.history == c.history && o.next.transactions == c.transactions
    ensures parsed.Unconfirmed? ==> o == Outcome(c, [AssistantSays(reply)])
    ensures parsed.Confirmed? ==>
              && o.next == c.(confirmedIncome := Some(parsed.income), phase := Done, inputEnabled := false,
                              consultShown := true)
              && |o.events| >= 3
              && (parsed.display != [] ==> o.events[0] == AssistantSays(parsed.display))
    ensures parsed.Confirmed? ==>
              var k := if parsed.display == [] then 0 else 1;
              && |o.events| >= k + 3
              && o.events[k] == Card(parsed.income, TotalExpense(c.transactions))
              && o.events[k + 1] == InputSet(false)
              && o.events[k + 2] == GatewayCall(AdviceOpening(c.transactions, Classify(parsed.income, TotalExpense(c.transactions))))
  {
    match parsed
    case Unconfirmed => Outcome(c, [AssistantSays(reply)])
    case Confirmed(income, display) =>
      var d := ShowHealthDashboard(c.(confirmedIncome := Some(income)), income, TotalExpense(c.transactions), advice);
      if display == [] then d else After([AssistantSays(display)], d)
  }

  /** The chat instructions: the confirmed income, the total expense, the savings, the
      rate as the chat computes it, and the transaction list. */
  function ChatContext(income: nat, ts: seq<Transaction>): (p: Prompt)
    ensures p.ChatSystem? && p.income == income && p.expense == TotalExpense(ts)
    ensures p.savings == income - TotalExpense(ts) && p.rate == ChatRate(income, TotalExpense(ts))
    ensures p.transactionList == FormatForAssistant(ts)
  {
    var expense := TotalExpense(ts);
    ChatSystem(income, expense, income - expense, ChatRate(income, expense), FormatForAssistant(ts))
  }

  /** `startChatConsult`: chatting with the input enabled, and a transcript of exactly
      one system message holding the figures. Without a confirmed income the code throws
      right after enabling the input, leaving the transcript as it was. */
  function StartChatConsult(c: Controller): (o: Outcome)
    ensures o.next.phase == Chatting && o.next.inputEnabled
    ensures o.next.(phase := c.phase, inputEnabled := c.inputEnabled, history := c.history) == c
    ensures c.confirmedIncome.Some? ==>
              o.next.history == [Message(System, Instructions(ChatContext(c.confirmedIncome.value, c.transactions)))]
    ensures c.confirmedIncome.Some? ==> o.events == [InputSet(true), AssistantSays(ChatGreeting)]
    ensures c.confirmedIncome.None? ==> o.next.history == c.history && o.events == [InputSet(true)]
  {
    var c' := c.(phase := Chatting, inputEnabled := true);
    match c.confirmedIncome
    case None => Outcome(c', [InputSet(true)])
    case Some(income) =>
      Outcome(c'.(history := [Message(System, Instructions(ChatContext(income, c.transactions)))]),
              [InputSet(true), AssistantSays(ChatGreeting)])
  }

  /** `handleChatMessage`: the user's turn joins the transcript and the whole transcript
      is sent; the reply joins it only when the call succeeds. */
  function HandleChatMessage(c: Controller, text: string, g: Gateway): (o: Outcome)
    ensures |o.events| == 2 && o.events[0] == GatewayCall(c.history + [Message(User, Said(text))])
    ensures o.next.history == c.history + [Message(User, Said(text))]
                              + (if g.Ok? then [Message(Assistant, Said(g.text))] else [])
    ensures o.next == c.(history := o.next.history)
    ensures o.events[1] == AssistantSays(if g.Ok? then g.text else ErrorApology)
  {
    var h := c.history + [Message(User, Said(text))];
    match g
    case Ok(reply) => Outcome(c.(history := h + [Message(Assistant, Said(reply))]), [GatewayCall(h), AssistantSays(reply)])
    case Failed => Outcome(c.(history := h), [GatewayCall(h), AssistantSays(ErrorApology)])
  }

  /** `handleAIInput`: blank input does nothing; otherwise the trimmed text is echoed
      and handed on according to the phase, and in any other phase nothing more
      happens. */
  function HandleAIInput(c: Controller, raw: string, reply: Gateway, advice: Gateway): (o: Outcome)
    ensures AllTrimmable(raw) ==> o == Outcome(c, [])
    ensures !AllTrimmable(raw) ==> |o.events| >= 1 && o.events[0] == UserSays(Trim(raw))
    ensures !AllTrimmable(raw) && !AcceptsInput(c.phase) ==> o == Outcome(c, [UserSays(Trim(raw))])
  {
    TrimSpec(raw);
    var text := Trim(raw);
    if text == [] then Outcome(c, [])
    else if c.phase == ConfirmingIncome then After([UserSays(text)], HandleIncomeConfirmation(c, text, reply, advice))
    else if c.phase == Chatting then After([UserSays(text)], HandleChatMessage(c, text, reply))
    else Outcome(c, [UserSays(text)])
  }

  // ---------------------------------------------------------------------------
  // Stimuli
  // ---------------------------------------------------------------------------

  /** What can happen to the panel, each with the outcomes of the calls it may make:
      the page's first load, a ledger edit (an add or a delete, which reloads and then
      resets), the refresh button, a sent input and the consult button. */
  datatype Stimulus =
    | PageLoaded(fetched: Option<seq<Transaction>>, analysis: Gateway)
    | LedgerEdited(fetched: Option<seq<Transaction>>, analysis: Gateway)
    | RefreshClicked(analysis: Gateway)
    | InputSent(raw: string, reply: Gateway, advice: Gateway)
    | ConsultClicked

  /** One stimulus, with the timers it starts run to completion. A disabled input
      box and send button, and a consult button that is not on screen, cannot be
      used, so those stimuli change nothing. */
  function Step(c: Controller, s: Stimulus): (o: Outcome)
    ensures s.InputSent? && !c.inputEnabled ==> o == Outcome(c, [])
    ensures s.ConsultClicked? && !c.consultShown ==> o == Outcome(c, [])
  {
    match s
    case PageLoaded(fetched, g) =>
      var l := Load(c, fetched);
      if fetched.Some? && c.phase == Idle then After(l.events, StartAIAnalysis(l.next, g)) else l
    case LedgerEdited(fetched, g) =>
      var l := Load(c, fetched);
      var r := ResetAI(l.next);
      After(l.events + r.events, StartAIAnalysis(r.next, g))
    case RefreshClicked(g) =>
      var r := ResetAI(c);
      After(r.events, StartAIAnalysis(r.next, g))
    case InputSent(raw, reply, advice) => if c.inputEnabled then HandleAIInput(c, raw, reply, advice) else Outcome(c, [])
    case ConsultClicked => if c.consultShown then StartChatConsult(c) else Outcome(c, [])
  }

  /** The state after a sequence of stimuli. */
  function Run(c: Controller, ss: seq<Stimulus>): Controller
    decreases |ss|
  {
    if |ss| == 0 then c else Run(Step(c, ss[0]).next, ss[1..])
  }

  // ---------------------------------------------------------------------------
  // The invariant
  // ---------------------------------------------------------------------------

  /** A transcript that opens with the one system message it holds. */
  predicate SystemFirst(h: seq<Message>) {
    |h| >= 1 && h[0].role == System && forall i :: 1 <= i < |h| ==> h[i].role != System
  }

  /** What holds of every state the panel reaches: the input is enabled exactly while
      text is handed to the assistant; an income is confirmed, and the consult button
      shown, exactly once the health card is out; there is no transcript before the
      analysis succeeds, and afterwards it opens with its only system message. */
  predicate Consistent(c: Controller) {
    && (c.inputEnabled <==> AcceptsInput(c.phase))
    && (c.confirmedIncome.Some? <==> KnowsIncome(c.phase))
    && (c.consultShown <==> KnowsIncome(c.phase))
    && (c.phase == Idle || c.phase == Analyzing ==> c.history == [])
    && (c.phase == ConfirmingIncome ==> |c.history| >= 3)
    && (c.phase != Idle && c.phase != Analyzing ==> SystemFirst(c.history))
    && (c.phase == ConfirmingIncome || c.phase == Done ==> c.history[0] == Message(System, Instructions(AnalysisSystem)))
    && (c.phase == Chatting ==> c.history[0].content.Instructions? && c.history[0].content.prompt.ChatSystem?)
  }

  lemma SystemFirstAppend(h: seq<Message>, extra: seq<Message>)
    requires SystemFirst(h)
    requires forall i :: 0 <= i < |extra| ==> extra[i].role != System
    ensures SystemFirst(h + extra) && (h + extra)[0] == h[0]
  {
    var h' := h + extra;
    forall i | 1 <= i < |h'|
      ensures h'[i].role != System
    {
      if i >= |h| {
        assert h'[i] == extra[i - |h|];
      }
    }
  }

  lemma LoadConsistent(c: Controller, fetched: Option<seq<Transaction>>)
    requires Consistent(c)
    ensures Consistent(Load(c, fetched).next)
  {
  }

  lemma ResetConsistent(c: Controller)
    ensures Consistent(ResetAI(c).next)
  {
  }

  lemma AnalysisConsistent(c: Controller, g: Gateway)
    requires Consistent(c) && c.phase == Analyzing
    ensures Consistent(StartAIAnalysis(c, g).next)
  {
    if c.transactions != [] && g.Ok? {
      var list := FormatForAssistant(c.transactions);
      var h := [Message(System, Instructions(AnalysisSystem)),
                Message(User, Instructions(AnalysisRequest(list))),
                Message(Assistant, Said(g.text))];
      assert AnalysisOpening(c.transactions) + [Message(Assistant, Said(g.text))] == h;
      assert StartAIAnalysis(c, g).next == c.(phase := ConfirmingIncome, inputEnabled := true, history := h);
      OpenedConsistent(c, list, g.text);
    }
  }

  /** The transcript a successful analysis opens keeps the invariant, whatever list
      the request carries. */
  lemma OpenedConsistent(c: Controller, list: string, reply: string)
    requires Consistent(c) && c.phase == Analyzing
    ensures var h := [Message(System, Instructions(AnalysisSystem)),
                      Message(User, Instructions(AnalysisRequest(list))),
                      Message(Assistant, Said(reply))];
            Consistent(c.(phase := ConfirmingIncome, inputEnabled := true, history := h))
  {
    var h := [Message(System, Instructions(AnalysisSystem)),
              Message(User, Instructions(AnalysisRequest(list))),
              Message(Assistant, Said(reply))];
    assert SystemFirst(h);
  }

  lemma ConfirmationConsistent(c: Controller, answer: string, g: Gateway, advice: Gateway)
    requires Consistent(c) && c.phase == ConfirmingIncome
    ensures Consistent(HandleIncomeConfirmation(c, answer, g, advice).next)
  {
    var h := c.history + [Message(User, Said(answer))];
    SystemFirstAppend(c.history, [Message(User, Said(answer))]);
    match g
    case Failed =>
    case Ok(reply) =>
      SystemFirstAppend(h, [Message(Assistant, Said(reply))]);
      SettleConsistent(c.(history := h + [Message(Assistant, Said(reply))]), reply, ParseReply(reply), advice);
  }

  lemma SettleConsistent(c: Controller, reply: string, parsed: Reply, advice: Gateway)
    requires Consistent(c) && c.phase == ConfirmingIncome
    ensures Consistent(Settle(c, reply, parsed, advice).next)
  {
    if parsed.Confirmed? {
      DoneConsistent(c, parsed.income);
    }
  }

  /** Confirming an income while waiting for it keeps the invariant. */
  lemma DoneConsistent(c: Controller, income: nat)
    requires Consistent(c) && c.phase == ConfirmingIncome
    ensures Consistent(c.(confirmedIncome := Some(income), phase := Done, inputEnabled := false, consultShown := true))
  {
  }

  lemma ChatConsistent(c: Controller, text: string, g: Gateway)
    requires Consistent(c) && c.phase == Chatting
    ensures Consistent(HandleChatMessage(c, text, g).next)
  {
    var extra := [Message(User, Said(text))] + (if g.Ok? then [Message(Assistant, Said(g.text))] else []);
    SystemFirstAppend(c.history, extra);
  }

  lemma InputConsistent(c: Controller, raw: string, reply: Gateway, advice: Gateway)
    requires Consistent(c)
    ensures Consistent(HandleAIInput(c, raw, reply, advice).next)
  {
    if !AllTrimmable(raw) {
      TrimSpec(raw);
      if c.phase == ConfirmingIncome {
        ConfirmationConsistent(c, Trim(raw), reply, advice);
      } else if c.phase == Chatting {
        ChatConsistent(c, Trim(raw), reply);
      }
    }
  }

  /** Every stimulus keeps the invariant. */
  lemma StepConsistent(c: Controller, s: Stimulus)
    requires Consistent(c)
    ensures Consistent(Step(c, s).next)
  {
    match s
    case PageLoaded(fetched, g) =>
      LoadConsistent(c, fetched);
      if fetched.Some? && c.phase == Idle {
        AnalysisConsistent(Load(c, fetched).next, g);
      }
    case LedgerEdited(fetched, g) =>
      AnalysisConsistent(ResetAI(Load(c, fetched).next).next, g);
    case RefreshClicked(g) =>
      AnalysisConsistent(ResetAI(c).next, g);
    case InputSent(raw, reply, advice) =>
      InputConsistent(c, raw, reply, advice);
    case ConsultClicked =>
      ConsultConsistent(c);
  }

  /** A click on the consult button keeps the invariant. */
  lemma ConsultConsistent(c: Controller)
    requires Consistent(c)
    ensures Consistent(Step(c, ConsultClicked).next)
  {
    if c.consultShown {
      assert c.confirmedIncome.Some?;
    }
  }

  lemma {:induction false} RunConsistent(c: Controller, ss: seq<Stimulus>)
    requires Consistent(c)
    ensures Consistent(Run(c, ss))
    decreases |ss|
  {
    if |ss| > 0 {
      StepConsistent(c, ss[0]);
      RunConsistent(Step(c, ss[0]).next, ss[1..]);
    }
  }

  /** Every state reached from the freshly loaded page is consistent. */
  lemma ReachableConsistent(ss: seq<Stimulus>)
    ensures Consistent(Run(Initial(), ss))
  {
    RunConsistent(Initial(), ss);
  }

  // ---------------------------------------------------------------------------
  // Properties of the conversation
  // ---------------------------------------------------------------------------

  /** The consult button is only ever on screen with an income confirmed, so the
      throwing path of `startChatConsult` is never taken, and a click always leaves a
      transcript of exactly one system message. */
  lemma ConsultHasIncome(ss: seq<Stimulus>)
    ensures var c := Run(Initial(), ss);
            c.consultShown ==> c.confirmedIncome.Some? && |Step(c, ConsultClicked).next.history| == 1
  {
    ReachableConsistent(ss);
    var c := Run(Initial(), ss);
    if c.consultShown {
      ConsultFromConsistent(c);
    }
  }

  lemma ConsultFromConsistent(c: Controller)
    requires Consistent(c) && c.consultShown
    ensures c.confirmedIncome.Some? && |Step(c, ConsultClicked).next.history| == 1
  {
  }

  /** Text that is not blank reaches the assistant exactly when the input is enabled. */
  lemma InputRouting(c: Controller, raw: string, reply: Gateway, advice: Gateway)
    requires Consistent(c) && !AllTrimmable(raw)
    ensures NoCalls(HandleAIInput(c, raw, reply, advice).events) <==> !c.inputEnabled
  {
    var o := HandleAIInput(c, raw, reply, advice);
    TrimSpec(raw);
    if c.phase == ConfirmingIncome {
      assert o.events[1] == HandleIncomeConfirmation(c, Trim(raw), reply, advice).events[0];
    } else if c.phase == Chatting {
      assert o.events[1] == HandleChatMessage(c, Trim(raw), reply).events[0];
    }
  }

  /** The confirmation step ends the wait exactly when the reply carries the sentinel,
      and then with the income the sentinel states; otherwise the panel keeps waiting
      with nothing confirmed. */
  lemma ConfirmationPhase(c: Controller, answer: string, g: Gateway, advice: Gateway)
    requires c.phase == ConfirmingIncome
    ensures var o := HandleIncomeConfirmation(c, answer, g, advice);
            && (o.next.phase == Done <==> g.Ok? && ParseReply(g.text).Confirmed?)
            && (o.next.phase != Done ==> o.next.phase == ConfirmingIncome && o.next.confirmedIncome == c.confirmedIncome)
            && (o.next.phase == Done ==> o.next.confirmedIncome == Some(ParseReply(g.text).income))
  {
  }

  /** A reply written as the confirmation instructions ask confirms the income it
      states, shows the text around the sentinel, and produces the card for that income. */
  lemma SentinelConfirms(c: Controller, answer: string, pre: string, n: nat, sep: string, rest: string, advice: Gateway)
    requires c.phase == ConfirmingIncome && NoMatch(pre) && SeparatorFits(sep, rest)
    ensures var o := HandleIncomeConfirmation(c, answer, Ok(pre + Marker + ShowNat(n) + sep + rest), advice);
            && o.next.confirmedIncome == Some(n) && o.next.phase == Done
            && Card(n, TotalExpense(c.transactions)) in o.events
            && GatewayCall(AdviceOpening(c.transactions, Classify(n, TotalExpense(c.transactions)))) in o.events
            && (Trim(pre + rest) != [] ==> AssistantSays(Trim(pre + rest)) in o.events)
  {
    var reply := pre + Marker + ShowNat(n) + sep + rest;
    ParseMarkedReply(pre, n, sep, rest);
    var h := c.history + [Message(User, Said(answer)), Message(Assistant, Said(reply))];
    var st := Settle(c.(history := h), reply, ParseReply(reply), advice);
    var o := HandleIncomeConfirmation(c, answer, Ok(reply), advice);
    assert o.events[1..] == st.events;
  }

  /** In every reachable state that waits for the confirmation, the confirmation call
      carries the analysis's system instructions and fresh instructions only, not the
      transcript that followed them. */
  lemma ConfirmationRequestShape(ss: seq<Stimulus>, answer: string, g: Gateway, advice: Gateway)
    ensures var c := Run(Initial(), ss);
            c.phase == ConfirmingIncome ==>
              HandleIncomeConfirmation(c, answer, g, advice).events[0] ==
                GatewayCall([Message(System, Instructions(AnalysisSystem)),
                             Message(User, Instructions(ConfirmRequest(answer, FormatForAssistant(c.transactions),
                                                                       TotalExpense(c.transactions))))])
  {
    ReachableConsistent(ss);
    var c := Run(Initial(), ss);
    if c.phase == ConfirmingIncome {
      ConfirmRequestFromConsistent(c, answer);
    }
  }

  lemma ConfirmRequestFromConsistent(c: Controller, answer: string)
    requires Consistent(c) && c.phase == ConfirmingIncome
    ensures ConfirmRequestOf(c.history + [Message(User, Said(answer))], answer, c.transactions)
            == [Message(System, Instructions(AnalysisSystem)),
                Message(User, Instructions(ConfirmRequest(answer, FormatForAssistant(c.transactions),
                                                          TotalExpense(c.transactions))))]
  {
    assert (c.history + [Message(User, Said(answer))])[..1] == [c.history[0]];
  }

  /** The advice request names no category exactly when the ledger has no expense. */
  lemma NoCategoriesIffNoExpense(ts: seq<Transaction>)
    ensures (CategorySummary(Breakdown(ts, AdviceLabels)) == NoCategories)
              <==> (forall i :: 0 <= i < |ts| ==> ts[i].kind != Expense)
  {
    BreakdownEmptyIff(ts, AdviceLabels);
  }

  /** With a positive income the chat instructions state the rate the card shows. */
  lemma ChatRateMatchesCard(income: nat, expense: int)
    requires expense >= 0 && income > 0
    ensures ChatRate(income, expense) == Finite(Classify(income, expense).savingsRate)
  {
  }

  /** A refresh with an empty ledger calls nobody and leaves the panel analyzing with
      its input disabled. */
  lemma RefreshEmptyLedger(c: Controller, g: Gateway)
    requires c.transactions == []
    ensures var o := Step(c, RefreshClicked(g));
            NoCalls(o.events) && o.next.phase == Analyzing && !o.next.inputEnabled && o.next.history == []
  {
  }

  /** Only a successful fetch changes the ledger the panel reads. */
  lemma StepKeepsLedger(c: Controller, s: Stimulus)
    ensures Step(c, s).next.transactions
              == if (s.PageLoaded? || s.LedgerEdited?) && s.fetched.Some? then s.fetched.value else c.transactions
  {
    match s
    case InputSent(raw, reply, advice) =>
      if c.inputEnabled && !AllTrimmable(raw) {
        TrimSpec(raw);
        if c.phase == ConfirmingIncome {
          ConfirmationKeepsLedger(c, Trim(raw), reply, advice);
        }
      }
    case _ =>
  }

  lemma ConfirmationKeepsLedger(c: Controller, answer: string, g: Gateway, advice: Gateway)
    ensures HandleIncomeConfirmation(c, answer, g, advice).next.transactions == c.transactions
  {
    match g
    case Failed =>
    case Ok(reply) =>
      var h := c.history + [Message(User, Said(answer)), Message(Assistant, Said(reply))];
      assert Settle(c.(history := h), reply, ParseReply(reply), advice).next.transactions == c.transactions;
  }

  // ---------------------------------------------------------------------------
  // An empty ledger is never analyzed
  // ---------------------------------------------------------------------------

  /** A stimulus that brings no transactions: every fetch it makes fails or is empty. */
  predicate FetchesNothing(s: Stimulus) {
    match s
    case PageLoaded(fetched, _) => fetched.None? || fetched.value == []
    case LedgerEdited(fetched, _) => fetched.None? || fetched.value == []
    case _ => true
  }

  /** The panel before any income question: no ledger, still idle or analyzing,
      nothing confirmed and no control usable. */
  predicate Unanalyzed(c: Controller) {
    && c.transactions == [] && (c.phase == Idle || c.phase == Analyzing)
    && c.confirmedIncome.None? && !c.inputEnabled && !c.consultShown
  }

  lemma EmptyStep(c: Controller, s: Stimulus)
    requires Unanalyzed(c) && FetchesNothing(s)
    ensures Unanalyzed(Step(c, s).next)
  {
  }

  lemma {:induction false} EmptyRun(c: Controller, ss: seq<Stimulus>)
    requires Unanalyzed(c) && forall i :: 0 <= i < |ss| ==> FetchesNothing(ss[i])
    ensures Unanalyzed(Run(c, ss))
    decreases |ss|
  {
    if |ss| > 0 {
      EmptyStep(c, ss[0]);
      EmptyRun(Step(c, ss[0]).next, ss[1..]);
    }
  }

  /** As long as no transaction is ever fetched, the panel never asks for the income:
      it stays idle or analyzing with nothing confirmed and its input disabled. */
  lemma EmptyLedgerNeverConfirms(ss: seq<Stimulus>)
    requires forall i :: 0 <= i < |ss| ==> FetchesNothing(ss[i])
    ensures var c := Run(Initial(), ss);
            (c.phase == Idle || c.phase == Analyzing) && c.confirmedIncome.None? && !c.inputEnabled
  {
    var c := Initial();
    assert Unanalyzed(c);
    EmptyRun(c, ss);
  }
}

=== FILE: health.dfy ===
/** The financial-health verdict shown once the monthly income is confirmed:
    savings, the savings rate in whole percent, and one of three statuses. */
module Health {

  datatype Status = Healthy | Warning | Deficit

  datatype Verdict = Verdict(income: int, expense: int, savings: int, savingsRate: int, status: Status)

  /** `Math.round(savings / income * 100)` for a positive income, in exact arithmetic.
      `Math.round(x)` is the integer nearest `x` with halves rounded up, toward +∞
      (ECMA-262, section 21.3.2.28), that is floor(x + 1/2); with x = 100 * savings / income
      that is floor((200 * savings + income) / (2 * income)). */
  function RoundedPercent(savings: int, income: int): (r: int)
    requires income > 0
    ensures 2 * income * r - income <= 200 * savings < 2 * income * r + income
  {
    var n, d := 200 * savings + income, 2 * income;
    assert n == d * (n / d) + n % d;
    n / d
  }

  /** Half-open brackets of width one hold one integer: the rounding above is the only
      integer within half a percent of the exact rate, rounding halves up. */
  lemma RoundedPercentUnique(savings: int, income: int, r: int)
    requires income > 0
    requires 2 * income * r - income <= 200 * savings < 2 * income * r + income
    ensures r == RoundedPercent(savings, income)
  {
    var q := RoundedPercent(savings, income);
    if r < q {
      MulMonotone(2 * income, r + 1, q);
    } else if q < r {
      MulMonotone(2 * income, q + 1, r);
    }
  }

  lemma MulMonotone(a: int, x: int, y: int)
    requires a > 0 && x <= y
    ensures a * x <= a * y
  {
  }

  /** The three bands, taken from the top: at least 20, else at least 0, else below. */
  function StatusOf(rate: int): Status {
    if rate >= 20 then Healthy else if rate >= 0 then Warning else Deficit
  }

  /** The verdict for a monthly income and a total expense: the rate is 0 when the
      income is not positive. */
  function Classify(income: int, expense: int): (v: Verdict)
    ensures v.income == income && v.expense == expense && v.savings == income - expense
    ensures income > 0 ==>
              2 * income * v.savingsRate - income <= 200 * v.savings < 2 * income * v.savingsRate + income
    ensures income <= 0 ==> v.savingsRate == 0
    ensures v.status == Healthy <==> v.savingsRate >= 20
    ensures v.status == Warning <==> 0 <= v.savingsRate < 20
    ensures v.status == Deficit <==> v.savingsRate < 0
  {
    var savings := income - expense;
    var rate := if income > 0 then RoundedPercent(savings, income) else 0;
    Verdict(income, expense, savings, rate, StatusOf(rate))
  }

  /** The status read straight off the two amounts: Healthy when the exact rate is at
      least 19.5%, Deficit when it is below -0.5%, Warning in between and whenever the
      income is not positive. A rate in (-0.5%, 0%) rounds to 0 and is a Warning. */
  lemma StatusByAmounts(income: int, expense: int)
    ensures var s, v := income - expense, Classify(income, expense);
            && (v.status == Healthy <==> income > 0 && 200 * s >= 39 * income)
            && (v.status == Deficit <==> income > 0 && 200 * s < -income)
            && (v.status == Warning <==> income <= 0 || -income <= 200 * s < 39 * income)
  {
    if income > 0 {
      var r := Classify(income, expense).savingsRate;
      HealthyByRate(income, income - expense, r);
      DeficitByRate(income, income - expense, r);
    }
  }

  /** A rounded rate of at least 20 is an exact rate of at least 19.5%. */
  lemma HealthyByRate(income: int, savings: int, r: int)
    requires income > 0
    requires 2 * income * r - income <= 200 * savings < 2 * income * r + income
    ensures r >= 20 <==> 200 * savings >= 39 * income
  {
    if r >= 20 {
      MulMonotone(2 * income, 20, r);
    } else {
      MulMonotone(2 * income, r + 1, 20);
    }
  }

  /** A rounded rate below 0 is an exact rate below -0.5%. */
  lemma DeficitByRate(income: int, savings: int, r: int)
    requires income > 0
    requires 2 * income * r - income <= 200 * savings < 2 * income * r + income
    ensures r < 0 <==> 200 * savings < -income
  {
    if r >= 0 {
      MulMonotone(2 * income, 0, r);
    } else {
      MulMonotone(2 * income, r + 1, 0);
    }
  }

  /** The worked scenarios: 60% Healthy, 0% Warning on the boundary, -50% Deficit, and
      an exact -0.5% rounding up to 0 and so a Warning. */
  lemma Scenarios()
    ensures Classify(5000000, 2000000) == Verdict(5000000, 2000000, 3000000, 60, Healthy)
    ensures Classify(2000000, 2000000) == Verdict(2000000, 2000000, 0, 0, Warning)
    ensures Classify(1000000, 1500000) == Verdict(1000000, 1500000, -500000, -50, Deficit)
    ensures Classify(200, 201).savingsRate == 0 && Classify(200, 201).status == Warning
    ensures Classify(0, 100).status == Warning
  {
  }
}

=== FILE: ledger.dfy ===
/** The transactions the advisor reads and the aggregates the page derives from them:
    balance, income and expense totals, the expense-by-category breakdown, the check
    the add form applies, and the transaction list as the assistant is shown it. */
module Ledger {
  import opened Wrappers
  import opened Text

  datatype Kind = Income | Expense

  /** An optional string property of a stored record; `Absent` is a property that is
      not there (`undefined`). */
  datatype Field = Absent | Present(text: string)

  /** `field || fallback`: the fallback stands in for a missing property and for the
      empty string, the one falsy string. */
  function OrDefault(f: Field, fallback: string): (r: string)
    ensures r == fallback <==> (f.Absent? || f.text == [] || f.text == fallback)
    ensures r != fallback ==> f == Present(r)
  {
    match f
    case Present(s) => if s == [] then fallback else s
    case Absent => fallback
  }

  /** The property as a template literal writes it: a missing one prints `undefined`. */
  function Interpolated(f: Field): string {
    match f
    case Present(s) => s
    case Absent => "undefined"
  }

  /** An amount in whole Rupiah; the add form lets through only amounts above zero. */
  type Amount = a: int | a > 0 witness 1

  datatype Transaction = Transaction(
    description: string,
    amount: Amount,
    kind: Kind,
    categoryName: Field,
    categoryEmoji: Field)

  // ---------------------------------------------------------------------------
  // Totals and balance
  // ---------------------------------------------------------------------------

  /** `transactions.filter(t => t.type === k)`: the entries of kind `k`, in order. */
  function OfKind(ts: seq<Transaction>, k: Kind): (r: seq<Transaction>)
    ensures |r| <= |ts|
    ensures forall i :: 0 <= i < |r| ==> r[i].kind == k && r[i] in ts
    ensures forall i :: 0 <= i < |ts| && ts[i].kind == k ==> ts[i] in r
  {
    if |ts| == 0 then []
    else
      var p := ts[..|ts| - 1];
      var r := OfKind(p, k);
      assert forall t :: t in p ==> t in ts;
      if ts[|ts| - 1].kind == k then r + [ts[|ts| - 1]] else r
  }

  /** Filtering keeps every entry of the kind as often as it occurs, and no other. */
  lemma {:induction false} OfKindCounts(ts: seq<Transaction>, k: Kind)
    ensures forall t :: multiset(OfKind(ts, k))[t] == if t.kind == k then multiset(ts)[t] else 0
  {
    if |ts| > 0 {
      var p, t := ts[..|ts| - 1], ts[|ts| - 1];
      OfKindCounts(p, k);
      assert ts == p + [t];
      assert multiset(ts) == multiset(p) + multiset{t};
      if t.kind == k {
        assert multiset(OfKind(p, k) + [t]) == multiset(OfKind(p, k)) + multiset{t};
      }
    }
  }

  /** `reduce((s, t) => s + t.amount, 0)`: amounts added left to right. */
  function SumAmounts(ts: seq<Transaction>): (r: int)
    ensures r >= 0
    ensures r == 0 <==> ts == []
  {
    if |ts| == 0 then 0 else SumAmounts(ts[..|ts| - 1]) + ts[|ts| - 1].amount
  }

  lemma SumAmountsSnoc(ts: seq<Transaction>, t: Transaction)
    ensures SumAmounts(ts + [t]) == SumAmounts(ts) + t.amount
  {
    assert (ts + [t])[..|ts|] == ts;
  }

  function TotalIncome(ts: seq<Transaction>): int {
    SumAmounts(OfKind(ts, Income))
  }

  function TotalExpense(ts: seq<Transaction>): int {
    SumAmounts(OfKind(ts, Expense))
  }

  /** What one entry adds to the running balance. */
  function Signed(t: Transaction): int {
    if t.kind == Income then t.amount as int else -(t.amount as int)
  }

  /** The running balance: every entry added in order, income up and anything else down. */
  function Balance(ts: seq<Transaction>): int {
    if |ts| == 0 then 0 else Balance(ts[..|ts| - 1]) + Signed(ts[|ts| - 1])
  }

  /** The balance is total income less total expense, for every list. */
  lemma {:induction false} BalanceIsNet(ts: seq<Transaction>)
    ensures Balance(ts) == TotalIncome(ts) - TotalExpense(ts)
  {
    if |ts| > 0 {
      BalanceIsNet(ts[..|ts| - 1]);
    }
  }

  /** Reference reading of a total: each entry contributes its amount when it has the
      kind and nothing otherwise, summed from the front. */
  function KindTotal(ts: seq<Transaction>, k: Kind): int {
    if |ts| == 0 then 0
    else (if ts[0].kind == k then ts[0].amount else 0) + KindTotal(ts[1..], k)
  }

  lemma {:induction false} KindTotalSnoc(ts: seq<Transaction>, t: Transaction, k: Kind)
    ensures KindTotal(ts + [t], k) == KindTotal(ts, k) + (if t.kind == k then t.amount else 0)
  {
    if |ts| > 0 {
      assert (ts + [t])[1..] == ts[1..] + [t];
      KindTotalSnoc(ts[1..], t, k);
    }
  }

  /** Filtering by kind and then summing counts exactly the entries of that kind:
      `totalIncome` adds only income entries and `totalExpense` only expense ones. */
  lemma {:induction false} TotalIsKindTotal(ts: seq<Transaction>, k: Kind)
    ensures SumAmounts(OfKind(ts, k)) == KindTotal(ts, k)
  {
    if |ts| > 0 {
      var p, t := ts[..|ts| - 1], ts[|ts| - 1];
      TotalIsKindTotal(p, k);
      KindTotalSnoc(p, t, k);
      assert ts == p + [t];
      if t.kind == k {
        SumAmountsSnoc(OfKind(p, k), t);
      }
    }
  }

  /** A total is zero exactly when no entry has that kind, since amounts are positive. */
  lemma TotalZeroIff(ts: seq<Transaction>, k: Kind)
    ensures SumAmounts(OfKind(ts, k)) == 0 <==> forall i :: 0 <= i < |ts| ==> ts[i].kind != k
  {
    if exists i :: 0 <= i < |ts| && ts[i].kind == k {
      var i :| 0 <= i < |ts| && ts[i].kind == k;
      assert ts[i] in OfKind(ts, k);
    }
  }

  // ---------------------------------------------------------------------------
  // Expense breakdown by category
  // ---------------------------------------------------------------------------

  /** The two ways a category label is written: the chart falls back to a default
      emoji and name, the advice prompt interpolates the properties as they are. */
  datatype LabelStyle = ChartLabels | AdviceLabels

  const DefaultEmoji: string := "📦"
  const DefaultName: string := "Other"

  /** The category label of an entry: emoji, a space, then name. */
  function Label(style: LabelStyle, t: Transaction): string {
    match style
    case ChartLabels => OrDefault(t.categoryEmoji, DefaultEmoji) + " " + OrDefault(t.categoryName, DefaultName)
    case AdviceLabels => Interpolated(t.categoryEmoji) + " " + Interpolated(t.categoryName)
  }

  /** One property of the grouping object: a label and the amount summed under it. */
  datatype Slice = Slice(key: string, total: int)

  /** `Object.keys`: the labels in the order their properties were created. Every label
      holds a space, so none is an array index and the order is creation order. */
  function Keys(b: seq<Slice>): (r: seq<string>)
    ensures |r| == |b| && forall i :: 0 <= i < |b| ==> r[i] == b[i].key
  {
    if |b| == 0 then [] else [b[0].key] + Keys(b[1..])
  }

  /** `object[key] || 0`: the amount recorded under `key`, zero when there is none. */
  function ValueOf(b: seq<Slice>, key: string): int {
    if |b| == 0 then 0 else if b[0].key == key then b[0].total else ValueOf(b[1..], key)
  }

  /** `Object.values(...)` summed. */
  function Totals(b: seq<Slice>): int {
    if |b| == 0 then 0 else b[0].total + Totals(b[1..])
  }

  predicate Distinct<T(==)>(xs: seq<T>) {
    forall i, j :: 0 <= i < j < |xs| ==> xs[i] != xs[j]
  }

  /** `object[key] = (object[key] || 0) + amount`: adds to an existing property in
      place, or creates the property after all the others. */
  function Accumulate(b: seq<Slice>, key: string, amount: int): (r: seq<Slice>)
    ensures Keys(r) == if key in Keys(b) then Keys(b) else Keys(b) + [key]
    ensures forall l :: ValueOf(r, l) == ValueOf(b, l) + (if l == key then amount else 0)
    ensures Totals(r) == Totals(b) + amount
  {
    if |b| == 0 then [Slice(key, amount)]
    else if b[0].key == key then [Slice(key, b[0].total + amount)] + b[1..]
    else [b[0]] + Accumulate(b[1..], key, amount)
  }

  /** `entries.forEach(t => accumulate(label(t), t.amount))` starting from `{}`. */
  function Group(es: seq<Transaction>, style: LabelStyle): seq<Slice> {
    if |es| == 0 then []
    else Accumulate(Group(es[..|es| - 1], style), Label(style, es[|es| - 1]), es[|es| - 1].amount)
  }

  /** The expense breakdown of the chart (`ChartLabels`) and of the advice prompt
      (`AdviceLabels`): the expense entries grouped by label. */
  function Breakdown(ts: seq<Transaction>, style: LabelStyle): seq<Slice> {
    Group(OfKind(ts, Expense), style)
  }

  /** Reference: the labels of the expense entries, in list order, repeats kept. */
  function ExpenseLabels(ts: seq<Transaction>, style: LabelStyle): seq<string> {
    if |ts| == 0 then []
    else if ts[|ts| - 1].kind == Expense then ExpenseLabels(ts[..|ts| - 1], style) + [Label(style, ts[|ts| - 1])]
    else ExpenseLabels(ts[..|ts| - 1], style)
  }

  /** Reference: the amounts of the expense entries that carry `key`, summed. */
  function ExpenseTotalFor(ts: seq<Transaction>, style: LabelStyle, key: string): int {
    if |ts| == 0 then 0
    else
      var t := ts[|ts| - 1];
      ExpenseTotalFor(ts[..|ts| - 1], style, key)
        + (if t.kind == Expense && Label(style, t) == key then t.amount else 0)
  }

  /** The index of the first occurrence of `x` in `xs`. */
  function FirstIndex<T(==)>(xs: seq<T>, x: T): (r: nat)
    requires x in xs
    ensures r < |xs| && xs[r] == x
    ensures forall j :: 0 <= j < r ==> xs[j] != x
  {
    if xs[0] == x then 0 else 1 + FirstIndex(xs[1..], x)
  }

  lemma FirstIndexSnoc<T>(xs: seq<T>, y: T, x: T)
    requires x in xs
    ensures FirstIndex(xs + [y], x) == FirstIndex(xs, x)
  {
    var b := FirstIndex(xs, x);
    assert (xs + [y])[b] == x;
  }

  /** `keys` lists distinct members of `xs` in the order of their first occurrence. */
  predicate InFirstSeenOrder<T(==)>(keys: seq<T>, xs: seq<T>) {
    && (forall i :: 0 <= i < |keys| ==> keys[i] in xs)
    && forall i, j :: 0 <= i < j < |keys| ==> FirstIndex(xs, keys[i]) < FirstIndex(xs, keys[j])
  }

  /** Adding one more entry to the list changes the breakdown only if it is an expense,
      and then by accumulating its amount under its label. */
  lemma BreakdownSnoc(ts: seq<Transaction>, style: LabelStyle)
    requires |ts| > 0
    ensures var p, t := ts[..|ts| - 1], ts[|ts| - 1];
            Breakdown(ts, style)
            == if t.kind == Expense then Accumulate(Breakdown(p, style), Label(style, t), t.amount)
               else Breakdown(p, style)
  {
    var p, t := ts[..|ts| - 1], ts[|ts| - 1];
    if t.kind == Expense {
      var es := OfKind(p, Expense) + [t];
      assert es[..|es| - 1] == OfKind(p, Expense);
    }
  }

  /** The breakdown has one property per distinct expense label. */
  lemma {:induction false} BreakdownKeys(ts: seq<Transaction>, style: LabelStyle)
    ensures var keys := Keys(Breakdown(ts, style));
            && Distinct(keys)
            && (forall l :: l in keys <==> l in ExpenseLabels(ts, style))
  {
    if |ts| > 0 {
      var p, t := ts[..|ts| - 1], ts[|ts| - 1];
      BreakdownKeys(p, style);
      BreakdownSnoc(ts, style);
      if t.kind == Expense {
        var keys, l := Keys(Breakdown(p, style)), Label(style, t);
        assert ExpenseLabels(ts, style) == ExpenseLabels(p, style) + [l];
        if l !in keys {
          DistinctSnoc(keys, l);
        }
      } else {
        assert ExpenseLabels(ts, style) == ExpenseLabels(p, style);
      }
    }
  }

  lemma DistinctSnoc<T>(xs: seq<T>, x: T)
    requires Distinct(xs) && x !in xs
    ensures Distinct(xs + [x])
  {
  }

  /** A repeat occurrence appended to `xs` leaves the first-seen order of `keys` alone. */
  lemma FirstSeenSnocRepeat<T>(keys: seq<T>, xs: seq<T>, x: T)
    requires InFirstSeenOrder(keys, xs) && x in xs
    ensures InFirstSeenOrder(keys, xs + [x])
  {
    forall k | k in xs
      ensures FirstIndex(xs + [x], k) == FirstIndex(xs, k)
    {
      FirstIndexSnoc(xs, x, k);
    }
  }

  /** A first occurrence appended to `xs` comes after every key seen before it. */
  lemma FirstSeenSnocNew<T>(keys: seq<T>, xs: seq<T>, x: T)
    requires InFirstSeenOrder(keys, xs) && x !in xs
    ensures InFirstSeenOrder(keys + [x], xs + [x])
  {
    var keys', xs' := keys + [x], xs + [x];
    forall k | k in xs
      ensures FirstIndex(xs', k) == FirstIndex(xs, k)
    {
      FirstIndexSnoc(xs, x, k);
    }
    assert FirstIndex(xs', x) == |xs|;
    forall i, j | 0 <= i < j < |keys'|
      ensures FirstIndex(xs', keys'[i]) < FirstIndex(xs', keys'[j])
    {
      assert keys'[i] == keys[i] && keys[i] in xs;
      if j < |keys| {
        assert keys'[j] == keys[j];
      }
    }
  }

  /** The labels of the breakdown come in the order each was first seen among the
      expense entries. */
  lemma {:induction false} BreakdownOrder(ts: seq<Transaction>, style: LabelStyle)
    ensures InFirstSeenOrder(Keys(Breakdown(ts, style)), ExpenseLabels(ts, style))
  {
    if |ts| > 0 {
      var p, t := ts[..|ts| - 1], ts[|ts| - 1];
      BreakdownOrder(p, style);
      BreakdownSnoc(ts, style);
      if t.kind == Expense {
        BreakdownKeys(p, style);
        var l := Label(style, t);
        var keys, labels := Keys(Breakdown(p, style)), ExpenseLabels(p, style);
        assert ExpenseLabels(ts, style) == labels + [l];
        if l in labels {
          FirstSeenSnocRepeat(keys, labels, l);
        } else {
          FirstSeenSnocNew(keys, labels, l);
        }
      }
    }
  }

  /** Each label's value is the sum of the amounts of the expense entries carrying it;
      income entries never contribute. */
  lemma {:induction false} BreakdownValues(ts: seq<Transaction>, style: LabelStyle, key: string)
    ensures ValueOf(Breakdown(ts, style), key) == ExpenseTotalFor(ts, style, key)
  {
    if |ts| > 0 {
      BreakdownValues(ts[..|ts| - 1], style, key);
      BreakdownSnoc(ts, style);
    }
  }

  /** The values of the breakdown add up to the total expense. */
  lemma {:induction false} BreakdownSumsToTotalExpense(ts: seq<Transaction>, style: LabelStyle)
    ensures Totals(Breakdown(ts, style)) == TotalExpense(ts)
  {
    if |ts| > 0 {
      var p := ts[..|ts| - 1];
      BreakdownSumsToTotalExpense(p, style);
      BreakdownSnoc(ts, style);
      if ts[|ts| - 1].kind == Expense {
        var es := OfKind(p, Expense) + [ts[|ts| - 1]];
        assert es[..|es| - 1] == OfKind(p, Expense);
      }
    }
  }

  /** The breakdown is empty exactly when the list has no expense entry. */
  lemma BreakdownEmptyIff(ts: seq<Transaction>, style: LabelStyle)
    ensures Breakdown(ts, style) == [] <==> forall i :: 0 <= i < |ts| ==> ts[i].kind != Expense
  {
    BreakdownSumsToTotalExpense(ts, style);
    TotalZeroIff(ts, Expense);
    if Breakdown(ts, style) != [] {
      var b := Breakdown(ts, style);
      BreakdownKeys(ts, style);
      assert Keys(b)[0] in ExpenseLabels(ts, style);
      ExpenseLabelsNonEmpty(ts, style);
    }
  }

  lemma {:induction false} ExpenseLabelsNonEmpty(ts: seq<Transaction>, style: LabelStyle)
    requires ExpenseLabels(ts, style) != []
    ensures exists i :: 0 <= i < |ts| && ts[i].kind == Expense
  {
    var p := ts[..|ts| - 1];
    if ts[|ts| - 1].kind != Expense {
      ExpenseLabelsNonEmpty(p, style);
      var i :| 0 <= i < |p| && p[i].kind == Expense;
      assert ts[i] == p[i];
    }
  }

  // ---------------------------------------------------------------------------
  // What the page shows after a load
  // ---------------------------------------------------------------------------

  /** The balance, the two totals and the chart's slices (`renderBalance`,
      `renderSummary`, `renderChart`); an empty chart is the "no expense data" panel. */
  datatype Summary = Summary(balance: int, totalIncome: int, totalExpense: int, chart: seq<Slice>)

  function Summarize(ts: seq<Transaction>): (r: Summary)
    ensures r.balance == r.totalIncome - r.totalExpense
    ensures r.totalIncome == KindTotal(ts, Income) && r.totalExpense == KindTotal(ts, Expense)
    ensures Totals(r.chart) == r.totalExpense
    ensures r.chart == [] <==> forall i :: 0 <= i < |ts| ==> ts[i].kind != Expense
  {
    BalanceIsNet(ts);
    TotalIsKindTotal(ts, Income);
    TotalIsKindTotal(ts, Expense);
    BreakdownSumsToTotalExpense(ts, ChartLabels);
    BreakdownEmptyIff(ts, ChartLabels);
    Summary(Balance(ts), TotalIncome(ts), TotalExpense(ts), Breakdown(ts, ChartLabels))
  }

  /** The worked example: a salary of 5000000 and two expenses of 1200000 and 800000
      give total income 5000000, total expense 2000000 and balance 3000000. */
  lemma ScenarioTotals()
    ensures var ts := [Transaction("Gaji", 5000000, Income, Absent, Absent),
                       Transaction("Makan", 1200000, Expense, Present("Food"), Present("🍔")),
                       Transaction("Sewa", 800000, Expense, Absent, Absent)];
            var r := Summarize(ts);
            r.totalIncome == 5000000 && r.totalExpense == 2000000 && r.balance == 3000000
  {
    var ts := [Transaction("Gaji", 5000000, Income, Absent, Absent),
               Transaction("Makan", 1200000, Expense, Present("Food"), Present("🍔")),
               Transaction("Sewa", 800000, Expense, Absent, Absent)];
    assert ts[1..][1..] == [ts[2]];
    assert KindTotal(ts, Income) == 5000000;
    assert KindTotal(ts, Expense) == 2000000;
  }

  // ---------------------------------------------------------------------------
  // The add form
  // ---------------------------------------------------------------------------

  /** The category picked in the form's drop-down. */
  datatype Category = Category(name: string, emoji: string)

  /** What the add form sends once its check passes, besides the category id. */
  datatype Draft = Draft(description: string, amount: Amount, kind: Kind, categoryName: string, categoryEmoji: string)

  /** The add form's check: a description that is not blank once trimmed and an amount
      that is a number above zero (`amount` is `None` when `parseFloat` gives NaN);
      without a selected option the category falls back to the defaults. */
  function CheckDraft(rawDescription: string, amount: Option<int>, kind: Kind, selected: Option<Category>): (r: Option<Draft>)
    ensures r.Some? <==> !AllTrimmable(rawDescription) && amount.Some? && amount.value > 0
    ensures r.Some? ==> r.value.description == Trim(rawDescription) && r.value.amount == amount.value
    ensures r.Some? ==> r.value.kind == kind
    ensures r.Some? && selected.Some? ==> r.value.categoryName == selected.value.name && r.value.categoryEmoji == selected.value.emoji
    ensures r.Some? && selected.None? ==> r.value.categoryName == DefaultName && r.value.categoryEmoji == DefaultEmoji
  {
    var description := Trim(rawDescription);
    if description == [] || amount.None? || amount.value <= 0 then None
    else
      var category := match selected
        case Some(c) => c
        case None => Category(DefaultName, DefaultEmoji);
      Some(Draft(description, amount.value, kind, category.name, category.emoji))
  }

  // ---------------------------------------------------------------------------
  // The transaction list as the assistant reads it
  // ---------------------------------------------------------------------------

  const NoTransactionsNote: string := "Belum ada transaksi."

  /** `t.type.toUpperCase()`. */
  function KindTag(k: Kind): string {
    match k
    case Income => "INCOME"
    case Expense => "EXPENSE"
  }

  /** One line of the list: kind, chart label, description and amount in Rupiah. */
  function Line(t: Transaction): (r: string)
    ensures var head := "- [" + KindTag(t.kind) + "] " + Label(ChartLabels, t) + " | ";
            |head| <= |r| && r[..|head|] == head
    ensures var tail := ": Rp " + Rupiah(t.amount);
            |tail| <= |r| && r[|r| - |tail|..] == tail && ParseDecimal(StripDots(Rupiah(t.amount))) == t.amount
    ensures var head, tail := "- [" + KindTag(t.kind) + "] " + Label(ChartLabels, t) + " | ", ": Rp " + Rupiah(t.amount);
            |r| == |head| + |t.description| + |tail| && r[|head|..|r| - |tail|] == t.description
  {
    var head, tail := "- [" + KindTag(t.kind) + "] " + Label(ChartLabels, t) + " | ", ": Rp " + Rupiah(t.amount);
    var r := head + t.description + tail;
    assert r[..|head|] == head;
    assert r[|r| - |tail|..] == tail;
    assert r[|head|..|r| - |tail|] == t.description;
    RupiahReadsBack(t.amount);
    r
  }

  function Lines(ts: seq<Transaction>): seq<string> {
    seq(|ts|, i requires 0 <= i < |ts| => Line(ts[i]))
  }

  /** `formatTransactionsForAI`: a fixed note for an empty list, otherwise one line per
      entry joined by newlines. */
  function FormatForAssistant(ts: seq<Transaction>): (r: string)
    ensures ts == [] <==> r == NoTransactionsNote
    ensures ts != [] ==> |Line(ts[0])| <= |r| && r[..|Line(ts[0])|] == Line(ts[0])
    ensures |ts| == 1 ==> r == Line(ts[0])
  {
    if |ts| == 0 then NoTransactionsNote
    else
      var r := Join(Lines(ts), "\n");
      assert Lines(ts)[0] == Line(ts[0]);
      r
  }

  /** One more entry adds one more line, after a newline: the text is the entries'
      lines, in list order, separated by newlines. */
  lemma FormatSnoc(ts: seq<Transaction>, t: Transaction)
    requires ts != []
    ensures FormatForAssistant(ts + [t]) == FormatForAssistant(ts) + "\n" + Line(t)
  {
    var ls := Lines(ts + [t]);
    assert ls[..|ls| - 1] == Lines(ts);
    assert ls[|ls| - 1] == Line(t);
  }
}

=== FILE: sentinel.dfy ===
/** The income sentinel the assistant is asked to put in its reply,
    `INCOME_CONFIRMED:<digits>`, and how a reply is read for it. */
module Sentinel {
  import opened Wrappers
  import opened Text

  const Marker: string := "INCOME_CONFIRMED:"

  /** `/INCOME_CONFIRMED:(\d+)/` can match at `i`: the marker starts there and at least
      one digit follows it. */
  predicate MatchAt(s: string, i: int) {
    0 <= i && i + |Marker| < |s| && s[i..i + |Marker|] == Marker && IsDigit(s[i + |Marker|])
  }

  predicate NoMatch(s: string) {
    forall i :: 0 <= i < |s| ==> !MatchAt(s, i)
  }

  /** The leftmost match at or after `from`, as a regular expression search finds it. */
  function FindFrom(s: string, from: nat): (r: Option<nat>)
    decreases |s| - from
    ensures r.Some? ==> from <= r.value && MatchAt(s, r.value)
    ensures r.Some? ==> forall j :: from <= j < r.value ==> !MatchAt(s, j)
    ensures r.None? ==> forall j :: from <= j ==> !MatchAt(s, j)
  {
    if from + |Marker| >= |s| then None
    else if MatchAt(s, from) then Some(from)
    else FindFrom(s, from + 1)
  }

  /** Where the digit run starting at `k` ends: `\d+` is greedy, so the run is maximal. */
  function DigitRunEnd(s: string, k: nat): (e: nat)
    requires k <= |s|
    decreases |s| - k
    ensures k <= e <= |s| && AllDigits(s[k..e])
    ensures e == |s| || !IsDigit(s[e])
  {
    if k < |s| && IsDigit(s[k]) then
      var e := DigitRunEnd(s, k + 1);
      assert s[k..e] == [s[k]] + s[k + 1..e];
      e
    else
      k
  }

  /** What a reply says about the income: a confirmed amount with the text to display,
      or nothing. */
  datatype Reply = Confirmed(income: nat, display: string) | Unconfirmed

  /** Reads a reply: the first match gives the income, `parseInt` of its digit run, and
      the display text is the reply with that match and one newline right after it
      removed (`replace(/INCOME_CONFIRMED:\d+\n?/, '')`), then trimmed. */
  function ParseReply(s: string): (r: Reply)
    ensures r.Confirmed? <==> !NoMatch(s)
    ensures r.Confirmed? ==> |r.display| < |s| - |Marker|
  {
    match FindFrom(s, 0)
    case None => Unconfirmed
    case Some(i) =>
      assert MatchAt(s, i);
      Confirmed(ParseDecimal(s[i + |Marker|..DigitRunEnd(s, i + |Marker|)]), Trim(Remainder(s, i)))
  }

  /** The reply without the match at `i` and the newline, if any, right after it: what
      is cut out is the marker, then a maximal run of digits, then either a newline or
      nothing, and then what follows is neither a digit nor a newline. */
  function Remainder(s: string, i: nat): (r: string)
    requires MatchAt(s, i)
    ensures |r| < |s| - |Marker|
    ensures var cut := i + |s| - |r|;
            && i + |Marker| < cut <= |s| && r == s[..i] + s[cut..]
            && ((i + |Marker| < cut - 1 && s[cut - 1] == '\n' && AllDigits(s[i + |Marker|..cut - 1]))
                || (AllDigits(s[i + |Marker|..cut]) && (cut == |s| || (!IsDigit(s[cut]) && s[cut] != '\n'))))
  {
    var e := DigitRunEnd(s, i + |Marker|);
    var cut := if e < |s| && s[e] == '\n' then e + 1 else e;
    assert i + |Marker| < e;
    var r := s[..i] + s[cut..];
    assert i + |s| - |r| == cut;
    r
  }

  /** No code point of the marker but its last is a colon, so two occurrences of the
      marker cannot overlap. */
  lemma ColonOnlyLast(m: nat)
    requires m < |Marker| - 1
    ensures Marker[m] != ':'
  {
  }

  /** Text without a match of its own gains none by having the marker put after it. */
  lemma NoMatchBeforeMarker(pre: string, tail: string)
    requires NoMatch(pre)
    ensures forall j :: 0 <= j < |pre| ==> !MatchAt(pre + Marker + tail, j)
  {
    var s := pre + Marker + tail;
    forall j | 0 <= j < |pre|
      ensures !MatchAt(s, j)
    {
      if j + |Marker| < |pre| {
        assert s[j..j + |Marker|] == pre[j..j + |Marker|];
        assert s[j + |Marker|] == pre[j + |Marker|];
        assert !MatchAt(pre, j);
      } else if j + |Marker| == |pre| {
        assert s[j + |Marker|] == Marker[0];
      } else {
        var m := j + |Marker| - 1 - |pre|;
        ColonOnlyLast(m);
        assert s[j..j + |Marker|][|Marker| - 1] == Marker[m];
      }
    }
  }

  /** A reply holding the marker right after match-free text is first matched there. */
  lemma FirstMatchAfter(pre: string, tail: string)
    requires NoMatch(pre) && |tail| > 0 && IsDigit(tail[0])
    ensures FindFrom(pre + Marker + tail, 0) == Some(|pre|)
  {
    var s := pre + Marker + tail;
    assert s[|pre|..|pre| + |Marker|] == Marker;
    assert s[|pre| + |Marker|] == tail[0];
    assert MatchAt(s, |pre|);
    NoMatchBeforeMarker(pre, tail);
  }

  /** A digit run that ends where the digits stop is the run `DigitRunEnd` finds. */
  lemma {:induction false} DigitRunFrom(s: string, k: nat, end: nat)
    requires k <= end <= |s| && AllDigits(s[k..end]) && (end == |s| || !IsDigit(s[end]))
    decreases end - k
    ensures DigitRunEnd(s, k) == end
  {
    if k < end {
      assert s[k] == s[k..end][0];
      assert s[k + 1..end] == s[k..end][1..];
      DigitRunFrom(s, k + 1, end);
    }
  }

  /** The digit run after the marker stops where the written number stops. */
  lemma DigitRunOfNumber(head: string, ds: string, tail: string)
    requires AllDigits(ds) && (tail == [] || !IsDigit(tail[0]))
    ensures DigitRunEnd(head + ds + tail, |head|) == |head| + |ds|
  {
    var s := head + ds + tail;
    assert s[|head|..|head| + |ds|] == ds;
    if tail != [] {
      assert s[|head| + |ds|] == tail[0];
    }
    DigitRunFrom(s, |head|, |head| + |ds|);
  }

  /** `ParseReply` at its first match, given the value of the digit run there and what
      is left once the match is removed. */
  lemma ParseReplyFirst(s: string, i: nat, n: nat, rest: string)
    requires FindFrom(s, 0) == Some(i)
    requires ParseDecimal(s[i + |Marker|..DigitRunEnd(s, i + |Marker|)]) == n
    requires Remainder(s, i) == rest
    ensures ParseReply(s) == Confirmed(n, Trim(rest))
  {
  }

  /** What `Remainder` keeps, once the end of the digit run is known. */
  lemma RemainderAt(s: string, i: nat, e: nat, cut: nat)
    requires MatchAt(s, i) && e == DigitRunEnd(s, i + |Marker|)
    requires cut == if e < |s| && s[e] == '\n' then e + 1 else e
    ensures Remainder(s, i) == s[..i] + s[cut..]
  {
  }

  /** What may follow the written number: a newline, or nothing when the rest can
      neither extend the digit run nor be the optional newline. */
  predicate SeparatorFits(sep: string, rest: string) {
    sep == "\n" || (sep == [] && (rest == [] || (!IsDigit(rest[0]) && rest[0] != '\n')))
  }

  /** Where the sentinel of a marked reply is found. */
  lemma MarkedMatch(s: string, pre: string, ds: string, sep: string, rest: string)
    requires s == pre + Marker + ds + sep + rest
    requires NoMatch(pre) && |ds| >= 1 && IsDigit(ds[0])
    ensures FindFrom(s, 0) == Some(|pre|)
  {
    assert s == pre + Marker + (ds + sep + rest);
    FirstMatchAfter(pre, ds + sep + rest);
  }

  /** Where the digit run of a marked reply ends. */
  lemma MarkedDigits(s: string, pre: string, ds: string, sep: string, rest: string)
    requires s == pre + Marker + ds + sep + rest
    requires AllDigits(ds) && SeparatorFits(sep, rest)
    ensures DigitRunEnd(s, |pre| + |Marker|) == |pre| + |Marker| + |ds|
    ensures s[|pre| + |Marker|..DigitRunEnd(s, |pre| + |Marker|)] == ds
  {
    assert s == (pre + Marker) + ds + (sep + rest);
    DigitRunOfNumber(pre + Marker, ds, sep + rest);
  }

  /** What a marked reply leaves once its sentinel is removed. */
  lemma MarkedRemainder(s: string, pre: string, ds: string, sep: string, rest: string)
    requires s == pre + Marker + ds + sep + rest
    requires SeparatorFits(sep, rest)
    requires MatchAt(s, |pre|) && DigitRunEnd(s, |pre| + |Marker|) == |pre| + |Marker| + |ds|
    ensures Remainder(s, |pre|) == pre + rest
  {
    var e := |pre| + |Marker| + |ds|;
    var cut := if e < |s| && s[e] == '\n' then e + 1 else e;
    RemainderAt(s, |pre|, e, cut);
    assert s[..|pre|] == pre;
    if sep == "\n" {
      assert s[e] == '\n';
    } else if rest != [] {
      assert s[e] == rest[0];
    }
    assert s[cut..] == rest;
  }

  /** The round trip: a reply made of text without a match, the marker, a number written
      out, a fitting separator and the rest is read as that number, with the text around
      the sentinel, trimmed, as display. */
  lemma ParseMarkedReply(pre: string, n: nat, sep: string, rest: string)
    requires NoMatch(pre) && SeparatorFits(sep, rest)
    ensures ParseReply(pre + Marker + ShowNat(n) + sep + rest) == Confirmed(n, Trim(pre + rest))
  {
    var ds := ShowNat(n);
    ParseShowNat(n);
    ReadMarkedReply(pre + Marker + ds + sep + rest, pre, ds, n, sep, rest);
  }

  /** Any reply of the instructed shape, whatever digits it carries, confirms their
      value and displays the text around the sentinel. */
  lemma ReadMarkedReply(s: string, pre: string, ds: string, n: nat, sep: string, rest: string)
    requires s == pre + Marker + ds + sep + rest
    requires NoMatch(pre) && AllDigits(ds) && |ds| >= 1 && ParseDecimal(ds) == n && SeparatorFits(sep, rest)
    ensures ParseReply(s) == Confirmed(n, Trim(pre + rest))
  {
    MarkedMatch(s, pre, ds, sep, rest);
    MarkedDigits(s, pre, ds, sep, rest);
    MarkedRemainder(s, pre, ds, sep, rest);
    ParseReplyFirst(s, |pre|, n, pre + rest);
  }

  /** The reply the assistant is asked for, read as income 5000000 and "Great, noted.". */
  lemma ConfirmationExample()
    ensures ParseReply("INCOME_CONFIRMED:5000000\nGreat, noted.") == Confirmed(5000000, "Great, noted.")
  {
    ExampleLayout();
    ExampleParts();
  }

  lemma ExampleLayout()
    ensures "" + Marker + "5000000" + "\n" + "Great, noted." == "INCOME_CONFIRMED:5000000\nGreat, noted."
  {
  }

  lemma ExampleParts()
    ensures ParseReply("" + Marker + "5000000" + "\n" + "Great, noted.") == Confirmed(5000000, "Great, noted.")
  {
    ShowFiveMillion();
    ParseMarkedReply("", 5000000, "\n", "Great, noted.");
    assert "" + "Great, noted." == "Great, noted.";
    TrimNoted();
  }

  lemma ShowFiveMillion()
    ensures ShowNat(5000000) == "5000000"
  {
    assert ShowNat(5) == "5";
    assert ShowNat(50) == "50";
    assert ShowNat(500) == "500";
    assert ShowNat(5000) == "5000";
    assert ShowNat(50000) == "50000";
    assert ShowNat(500000) == "500000";
  }

  lemma TrimNoted()
    ensures Trim("Great, noted.") == "Great, noted."
  {
    var t := "Great, noted.";
    assert t[0] == 'G' && t[|t| - 1] == '.';
    TrimUntouched(t);
  }
}

=== FILE: text.dfy ===
/** The string operations of the JavaScript runtime the advisor relies on:
    `String.prototype.trim`, decimal digits (`\d`, `parseInt`, `Number.prototype.toString`),
    Indonesian-locale grouping of whole numbers and `Array.prototype.join`. */
module Text {

  // ---------------------------------------------------------------------------
  // Trimming
  // ---------------------------------------------------------------------------

  /** A code point that `String.prototype.trim` removes: one of ECMA-262's WhiteSpace
      code points (tab, vertical tab, form feed, space, no-break space, the byte order
      mark and the other Unicode space separators) or LineTerminator code points
      (line feed, carriage return, line separator, paragraph separator). */
  predicate IsTrimmable(c: char) {
    || c == '\t' || c == '\U{000B}' || c == '\U{000C}' || c == ' '
    || c == '\U{00A0}' || c == '\U{FEFF}' || c == '\U{1680}'
    || ('\U{2000}' <= c <= '\U{200A}')
    || c == '\U{202F}' || c == '\U{205F}' || c == '\U{3000}'
    || c == '\n' || c == '\r' || c == '\U{2028}' || c == '\U{2029}'
  }

  predicate AllTrimmable(s: string) {
    forall i :: 0 <= i < |s| ==> IsTrimmable(s[i])
  }

  /** `s` without its leading trimmable code points. */
  function TrimStart(s: string): (r: string)
    ensures |r| <= |s| && r == s[|s| - |r|..]
    ensures AllTrimmable(s[..|s| - |r|])
    ensures r == [] || !IsTrimmable(r[0])
  {
    if |s| > 0 && IsTrimmable(s[0]) then
      var r := TrimStart(s[1..]);
      assert s[..|s| - |r|] == [s[0]] + s[1..][..|s| - 1 - |r|];
      r
    else
      s
  }

  /** `s` without its trailing trimmable code points. */
  function TrimEnd(s: string): (r: string)
    ensures |r| <= |s| && r == s[..|r|]
    ensures AllTrimmable(s[|r|..])
    ensures r == [] || !IsTrimmable(r[|r| - 1])
  {
    if |s| > 0 && IsTrimmable(s[|s| - 1]) then
      var r := TrimEnd(s[..|s| - 1]);
      assert s[|r|..] == s[..|s| - 1][|r|..] + [s[|s| - 1]];
      r
    else
      s
  }

  /** `r` is the slice of `s` starting at `k`, with only trimmable code points around it. */
  predicate SliceBetweenTrimmable(s: string, k: int, r: string) {
    && 0 <= k <= |s| - |r| && r == s[k..k + |r|]
    && AllTrimmable(s[..k]) && AllTrimmable(s[k + |r|..])
  }

  /** `String.prototype.trim`. */
  function Trim(s: string): (r: string)
    ensures |r| <= |s|
  {
    TrimEnd(TrimStart(s))
  }

  /** What trimming leaves: the slice of `s` with only trimmable code points around it
      and none at either of its ends; it is empty exactly when all of `s` is trimmable. */
  lemma TrimSpec(s: string)
    ensures var r := Trim(s);
            && (exists k :: SliceBetweenTrimmable(s, k, r))
            && (r == [] || (!IsTrimmable(r[0]) && !IsTrimmable(r[|r| - 1])))
            && (r == [] <==> AllTrimmable(s))
  {
    var t := TrimStart(s);
    var r := TrimEnd(t);
    TrimSlice(s, t, r);
    assert r == Trim(s);
    assert SliceBetweenTrimmable(s, |s| - |t|, Trim(s));
  }

  /** The facts `Trim` promises, from those `TrimStart` and `TrimEnd` promise. */
  lemma TrimSlice(s: string, t: string, r: string)
    requires |r| <= |t| <= |s| && t == s[|s| - |t|..] && r == t[..|r|]
    requires AllTrimmable(s[..|s| - |t|]) && AllTrimmable(t[|r|..])
    requires t == [] || !IsTrimmable(t[0])
    requires r == [] || !IsTrimmable(r[|r| - 1])
    ensures r == [] || (!IsTrimmable(r[0]) && !IsTrimmable(r[|r| - 1]))
    ensures SliceBetweenTrimmable(s, |s| - |t|, r)
    ensures r == [] <==> AllTrimmable(s)
  {
    var k := |s| - |t|;
    assert s[k + |r|..] == t[|r|..];
    if r == [] {
      assert t[0..] == t;
      AllTrimmableConcat(s[..k], t);
      assert s == s[..k] + t;
    } else {
      assert r[0] == s[k];
    }
  }

  /** Text that neither starts nor ends with a trimmable code point is left as it is. */
  lemma TrimUntouched(s: string)
    requires s == [] || (!IsTrimmable(s[0]) && !IsTrimmable(s[|s| - 1]))
    ensures Trim(s) == s
  {
  }

  lemma AllTrimmableConcat(a: string, b: string)
    requires AllTrimmable(a) && AllTrimmable(b)
    ensures AllTrimmable(a + b)
  {
  }

  /** Trimming twice is trimming once. */
  lemma TrimIdempotent(s: string)
    ensures Trim(Trim(s)) == Trim(s)
  {
    var r := Trim(s);
    TrimSpec(s);
    assert TrimStart(r) == r;
    assert TrimEnd(r) == r;
  }

  // ---------------------------------------------------------------------------
  // Decimal digits
  // ---------------------------------------------------------------------------

  /** The regular-expression class `\d` without the `u` flag: ASCII `0`-`9`. */
  predicate IsDigit(c: char) {
    '0' <= c <= '9'
  }

  predicate AllDigits(s: string) {
    forall i :: 0 <= i < |s| ==> IsDigit(s[i])
  }

  function DigitValue(c: char): (d: nat)
    requires IsDigit(c)
    ensures d < 10
  {
    c as int - '0' as int
  }

  function DigitChar(d: nat): (c: char)
    requires d < 10
    ensures IsDigit(c) && DigitValue(c) == d
  {
    ('0' as int + d) as char
  }

  /** `parseInt` of a run of decimal digits, read most significant digit first
      (exact: JavaScript's loss of precision above 2^53 is not modelled). */
  function ParseDecimal(ds: string): nat
    requires AllDigits(ds)
  {
    if |ds| == 0 then 0
    else 10 * ParseDecimal(ds[..|ds| - 1]) + DigitValue(ds[|ds| - 1])
  }

  /** `Number.prototype.toString()` of a natural number: its decimal digits,
      without leading zeros. */
  function ShowNat(n: nat): (r: string)
    ensures |r| >= 1 && AllDigits(r)
    ensures r[0] == '0' ==> n == 0
  {
    if n < 10 then [DigitChar(n)] else ShowNat(n / 10) + [DigitChar(n % 10)]
  }

  /** Reading back what `ShowNat` wrote gives the number it was given. */
  lemma {:induction false} ParseShowNat(n: nat)
    ensures ParseDecimal(ShowNat(n)) == n
  {
    if n >= 10 {
      var r := ShowNat(n);
      ParseShowNat(n / 10);
      assert r[..|r| - 1] == ShowNat(n / 10);
    }
  }

  /** A digit run with no leading zero has a positive value. */
  lemma {:induction false} ParseDecimalPositive(ds: string)
    requires AllDigits(ds) && |ds| >= 1 && ds[0] != '0'
    ensures ParseDecimal(ds) >= 1
  {
    if |ds| > 1 {
      ParseDecimalPositive(ds[..|ds| - 1]);
    }
  }

  /** Writing out what `ParseDecimal` read gives back the digits, when they have
      no leading zero: `ShowNat` and `ParseDecimal` are inverse bijections between
      naturals and canonical digit runs. */
  lemma {:induction false} ShowParseDecimal(ds: string)
    requires AllDigits(ds) && |ds| >= 1 && (ds[0] != '0' || |ds| == 1)
    ensures ShowNat(ParseDecimal(ds)) == ds
  {
    var p := ds[..|ds| - 1];
    var v := DigitValue(ds[|ds| - 1]);
    if |ds| > 1 {
      ParseDecimalPositive(p);
      ShowParseDecimal(p);
      var n := ParseDecimal(ds);
      assert n == 10 * ParseDecimal(p) + v;
      assert n / 10 == ParseDecimal(p) && n % 10 == v;
      assert ds == p + [ds[|ds| - 1]];
    }
  }

  // ---------------------------------------------------------------------------
  // Indonesian-locale amounts
  // ---------------------------------------------------------------------------

  /** A run of digits with `.` inserted before every group of three counted from the right. */
  function GroupThousands(ds: string): (r: string)
    ensures |ds| >= 1 ==> |r| >= 1
  {
    if |ds| <= 3 then ds else GroupThousands(ds[..|ds| - 3]) + "." + ds[|ds| - 3..]
  }

  /** `Number.prototype.toLocaleString('id-ID')` of a whole number: the Indonesian
      locale groups thousands with `.` and writes no fraction digits. */
  function Rupiah(n: int): (r: string)
    ensures n >= 0 ==> StripDots(r) == ShowNat(n)
    ensures n < 0 ==> |r| >= 2 && r[0] == '-' && StripDots(r[1..]) == ShowNat(-n)
  {
    var ds := ShowNat(if n < 0 then -n else n);
    GroupThousandsDigits(ds);
    if n < 0 then "-" + GroupThousands(ds) else GroupThousands(ds)
  }

  /** Reading an amount back off its Rupiah text, separators dropped, gives the amount. */
  lemma RupiahReadsBack(n: nat)
    ensures AllDigits(StripDots(Rupiah(n))) && ParseDecimal(StripDots(Rupiah(n))) == n
  {
    ParseShowNat(n);
  }

  /** `s` with every `.` removed. */
  function StripDots(s: string): (r: string)
    ensures |r| <= |s|
  {
    if |s| == 0 then []
    else if s[|s| - 1] == '.' then StripDots(s[..|s| - 1])
    else StripDots(s[..|s| - 1]) + [s[|s| - 1]]
  }

  lemma {:induction false} StripDotsAppend(a: string, b: string)
    ensures StripDots(a + b) == StripDots(a) + StripDots(b)
  {
    if |b| > 0 {
      assert (a + b)[..|a + b| - 1] == a + b[..|b| - 1];
      StripDotsAppend(a, b[..|b| - 1]);
    } else {
      assert a + b == a;
    }
  }

  lemma {:induction false} StripDotsOfDigits(s: string)
    requires AllDigits(s)
    ensures StripDots(s) == s
  {
    if |s| > 0 {
      StripDotsOfDigits(s[..|s| - 1]);
      assert s == s[..|s| - 1] + [s[|s| - 1]];
    }
  }

  /** Grouping only inserts separators: deleting every `.` gives back the digits. */
  lemma {:induction false} GroupThousandsDigits(ds: string)
    requires AllDigits(ds)
    ensures StripDots(GroupThousands(ds)) == ds
  {
    if |ds| <= 3 {
      StripDotsOfDigits(ds);
    } else {
      var hi, lo := ds[..|ds| - 3], ds[|ds| - 3..];
      GroupThousandsDigits(hi);
      StripDotsAppend(GroupThousands(hi) + ".", lo);
      StripDotsAppend(GroupThousands(hi), ".");
      StripDotsOfDigits(lo);
      assert ds == hi + lo;
    }
  }

  // ---------------------------------------------------------------------------
  // Joining
  // ---------------------------------------------------------------------------

  /** `Array.prototype.join(sep)`. */
  function Join(parts: seq<string>, sep: string): (r: string)
    ensures |parts| == 0 ==> r == []
    ensures |parts| >= 1 ==> |parts[0]| <= |r| && r[..|parts[0]|] == parts[0]
  {
    if |parts| == 0 then []
    else if |parts| == 1 then parts[0]
    else Join(parts[..|parts| - 1], sep) + sep + parts[|parts| - 1]
  }
}

=== FILE: wrappers.dfy ===
/** The optional value used across the model, for JavaScript's `null`. */
module Wrappers {

  /** A value that may be missing: `None` plays the part of `null`. */
  datatype Option<+T> = None | Some(value: T)
}
